=== FILE: README.md ===
# pacmanAttack rules in Dafny

A model of the deterministic rules under the browser shooter pacmanAttack.
Enemies ("invaders") arrive in waves of five above the screen, drift sideways
and descend. The player fires projectiles under a cooldown and may use two
timed power-ups, a shield and rapid fire. Every tenth kill brings a mothership,
which sweeps across the screen, steps down at each edge, fires on a countdown,
and pays a 2000-point bonus when its 25 health points are shot away. Floating
score popups fade out and disappear. At the end of a game the score is
recorded in a ten-entry high-score table.

Everything is a pure function over immutable records. The browser clock and
every `Math.random()` value are passed in as parameters. A random value is a
`Common.Draw`, a real in [0, 1). The `setTimeout` and `setInterval` callbacks of
the power-ups become explicit events. JavaScript object identity, which the
frame loop uses to check that an enemy is still alive, is an `id` field.

Modules:

- `Common`: `Option`, `Draw`, `splice` as `RemoveAt`, and counting and filtering of sequences.
- `Leaderboard`: `saveToLeaderboard`.
- `Powers`: `activatePower` and `startCooldown`.
- `Invaders`: `Invader` and `InvaderProjectile`.
- `Spawner`: `InvaderSpawner`.
- `Boss`: `Mothership`.
- `Popups`: `ScorePopup`.
- `Combat`: the counters the frame loop `animate` changes in `src/main.js`. These are score, lives, kills, the game-over flag and the mothership's health.

Where the code behaves otherwise than its comments or a first reading suggest, the model follows the code:

- **Mothership before its image loads.** The mothership is meant to wait for its image, but the guard `if (!this.image) return` in `Mothership.update` never fires, because the enemy constructor has already set `this.image`. So a mothership that has not loaded still sweeps, at the enemy's 30×30 size and random speed. Its `undefined` health compares false with `<= 5`, so it never shakes. Its `undefined` cooldown compares false with `> 0`, so its first `shoot` call fires at once. `Boss.Update` and `Boss.Shoot` model this, with an unloaded cooldown of 0.
- **Enemy velocity range.** An enemy's horizontal velocity lies in [-m, m) for speed multiplier m. The comment beside it says -2 to 2.
- **Spawn positions.** Spawn x positions lie in the half-open range [0, W - 30).
- **Lives.** The lives counter can fall below zero. Hits are still taken during the 1.5 s between `game.over` and the end of the animation.
- **The "+50" popup.** A hit on the mothership shows a "+50" popup but does not change the score.
- **Hitting a mothership that has not loaded.** Such a hit removes the projectile and turns the health into NaN. NaN is never `<= 0`, so the hit can never defeat the mothership, and loading sets the health to 25.

## Model

| member | source | states |
|---|---|---|
| Leaderboard.FindIndex | src/main.js:829-831 | the index of the first entry whose name equals the player's name ignoring case, and none exactly when no entry matches |
| Leaderboard.Upsert | src/main.js:833-846 | an existing player's score becomes the larger of the old and new scores. Its date changes only on a strict improvement, and every other entry is unchanged. A new name adds exactly one entry at the end. |
| Leaderboard.InsertSorted | src/main.js:849 | inserting an entry into a list sorted highest first keeps it sorted |
| Leaderboard.SortByScore | src/main.js:849 | the sorted table is a permutation of its input, with the same length, and scores never increase along it |
| Leaderboard.Top | src/main.js:852 | the cut keeps the first ten entries, or all of them when there are no more than ten |
| Leaderboard.Save | src/main.js:825-855 | the stored table has at most 10 entries, sorted highest first, all from the updated table. When the updated table has at most 10 entries, they are exactly its entries. |
| Leaderboard.SaveKeepsBest | src/main.js:833-852 | after saving, either the player's entry holds at least the submitted score, or the table is full of entries that all score at least that much |
| Leaderboard.UpsertUnique | src/main.js:829-846 | matching names case-insensitively never creates a second entry for the same player |
| Leaderboard.SaveKeepsNamesUnique | src/main.js:825-852 | a table without duplicate case-insensitive names keeps that property after a save |
| Leaderboard.SaveDropsOnlyLowest | src/main.js:849-852 | an entry is cut only when the table is full of ten entries that each score at least as much as it does |
| Leaderboard.CutDropsOnlyLowest | src/main.js:849-852 | cutting a sorted table to ten drops an entry only when the ten kept entries each score at least as much as it does |
| Leaderboard.SaveAgain | src/main.js:829-852 | a player recording again in a one-entry table keeps one entry, which holds the better score and changes its date only on a strict improvement |
| Leaderboard.RecordAliceExample | src/main.js:825-852 | "alice" with 100, then "Alice" with 50, keeps 100 and the first date. Then "ALICE" with 150 raises it to 150, with the new date, and the table still has one entry. |
| Powers.Initial | src/config.js:14-17 | both powers start inactive and ready with no cooldown, with durations 3000 and 5000 ms |
| Powers.ActivatePower | src/main.js:48-75 | on a power that is not ready nothing changes; otherwise the power becomes active and not ready |
| Powers.Expire | src/config.js:19-37 | when the active window ends the power goes inactive and its cooldown is loaded with 10000 ms for the shield or 15000 ms for rapid fire |
| Powers.Tick | src/main.js:77-86 | each interval firing takes 1000 ms off the cooldown, and the power is ready exactly when the cooldown is no longer positive |
| Powers.Step | src/main.js:48-86 | an event changes only the power it names |
| Powers.StepKeepsValid | src/main.js:48-86 | every event keeps the phase invariant: never active and ready at once, and the cooldown positive exactly while cooling |
| Powers.RunKeepsValid | src/main.js:48-86 | any sequence of events keeps the phase invariant |
| Powers.ReachableNeverActiveAndReady | src/main.js:48-86 | no state reachable from the initial powers has a power both active and ready |
| Powers.ActivateIdempotent | src/main.js:48-50 | pressing the key again while the power is active changes nothing |
| Powers.CooldownReadyExactly | src/config.js:39-48 | after n firings of the interval the power is ready exactly when n seconds cover the cooldown. Until then the cooldown has dropped by 1000 ms per firing. |
| Powers.FullCycle | src/main.js:48-86 | from ready, an activation and the end of the active window leave the power cooling. It is still not ready after 9 (shield) or 14 (rapid fire) firings, and ready after 10 or 15. |
| Invaders.MoveEnemyShot | src/classes/InvaderProjectile.js:14-18 | an enemy projectile moves by its velocity and keeps its velocity and size |
| Invaders.NewInvader | src/classes/Invader.js:8-20 | an enemy is 30×30 at the given position. For multiplier m > 0, vx lies in [-m, m) and vy in [0.5m, m), so it always descends. |
| Invaders.Drift | src/classes/Invader.js:10-14 | the horizontal velocity lies in [-m, m) for m > 0 |
| Invaders.Descent | src/classes/Invader.js:11-15 | the vertical velocity lies in [0.5m, m) for m > 0 |
| Invaders.Update | src/classes/Invader.js:48-59 | the position moves by the velocity. vx is negated exactly when the moved enemy touches the left or right edge; vy never changes. |
| Invaders.UpdateKeepsSpeed | src/classes/Invader.js:52-58 | an update only ever flips the sign of vx, so the speed is unchanged |
| Invaders.UpdatesDescend | src/classes/Invader.js:52-53 | after n updates an enemy is exactly n·vy lower, with vy unchanged |
| Invaders.Shoot | src/classes/Invader.js:61-69 | exactly one projectile is appended, at the bottom centre of the enemy, with velocity (0, 5) |
| Invaders.ShotTravelsStraight | src/classes/InvaderProjectile.js:14-18 | after n frames an enemy projectile has moved n times its unchanged velocity |
| Invaders.ShotFallsFromEnemy | src/classes/Invader.js:61-69 | n frames after an enemy fires, its projectile is below the enemy's centre, 5n below its bottom edge |
| Spawner.NewSpawner | src/classes/InvaderSpawner.js:4-7 | a new spawner has made no waves |
| Spawner.SpawnX | src/classes/InvaderSpawner.js:15 | a spawn x lies in [0, W - 30), so a 30-wide enemy fits the canvas |
| Spawner.SpawnY | src/classes/InvaderSpawner.js:16 | a spawn y lies in (-250, -50], above the screen |
| Spawner.SpawnWave | src/classes/InvaderSpawner.js:9-27 | exactly five enemies, all 30×30 and above the screen, with x within the canvas and the same multiplier's velocity ranges. The call counter rises by one. |
| Boss.NewMothership | src/classes/Mothership.js:7-8 | a new mothership is not loaded, sits at (W/2 - 150, 80) with the enemy's size and velocity ranges, and has no cooldown yet |
| Boss.Load | src/classes/Mothership.js:12-19 | loading scales the image by 1.5 and sets velocity (2.5, 0), health 25 and cooldown 60, in place |
| Boss.Sweep | src/classes/Mothership.js:25-35 | at the right edge x is clamped to W - width, vx becomes -\|vx\| and y grows by 10. At the left edge x is clamped to 0, vx becomes \|vx\| and y grows by 10. Elsewhere only x changes, by vx. |
| Boss.SweepStaysOnCanvas | src/classes/Mothership.js:25-35 | a mothership no wider than the canvas ends every sweep within it, never higher than before |
| Boss.Update | src/classes/Mothership.js:22-47 | an unloaded or healthy mothership only sweeps. A loaded one with health 5 or less is shaken after the sweep by an offset in [-1, 1) sideways and [-0.5, 0.5) vertically, and nothing but its position differs from the sweep. |
| Boss.Shoot | src/classes/Mothership.js:62-72 | with a positive cooldown, the cooldown drops by one and nothing is fired. Otherwise exactly one projectile leaves the bottom centre at (0, 4) and the cooldown becomes 40. |
| Boss.FirstShotAfterCooldown | src/classes/Mothership.js:62-72 | with cooldown c, the first c calls fire nothing, and call c + 1 fires exactly one projectile and restarts the cooldown at 40 |
| Popups.NewPopup | src/classes/ScorePopup.js:2-11 | a popup is yellow with life 60 unless given, fully opaque, rising at 1.2 and with a sideways velocity in [-0.3, 0.3) |
| Popups.Update | src/classes/ScorePopup.js:29-35 | one update moves the popup by its velocity and takes one unit of life. It fades by 0.04 exactly when the new life is below 20. |
| Popups.UpdatesLifeAndOpacity | src/classes/ScorePopup.js:29-35 | after n updates, life has dropped by n and opacity by 0.04 per update that left less than 20 life |
| Popups.DeadExactlyAfterLife | src/classes/ScorePopup.js:29-39 | an opaque popup with life L is finished after n updates exactly when n ≥ L |
| Popups.UpdatePopups | src/main.js:617-623 | the popups kept are exactly the updated popups that are not finished, each once and in their original order, although the loop runs from the back |
| Popups.SurvivorsSpec | src/main.js:617-623 | the popups a frame keeps are no more than it had; each is an update of an input and not finished, and no unfinished update is lost |
| Combat.NewGame | src/main.js:291-300 | a game starts with score 0, 3 lives, no kills and not over; `lastMothershipSpawn` is not reset |
| Combat.ShootProjectile | src/main.js:253-265 | a shot is refused within 50 ms of the last one with rapid fire, or 200 ms without. Otherwise exactly one projectile is added at the middle of the player's top edge with velocity (0, -10), and the shot time becomes now. |
| Combat.FireRateBound | src/main.js:253-265 | however often the trigger is pulled before time t, the n shots fired are spaced so that the last shot time is at least n gaps after the previous one and no later than t |
| Combat.ResolvePlayerHit | src/main.js:392-419 | the enemy projectile is removed either way. With the shield the counters are unchanged; otherwise exactly one life is lost, and the game is over once none is left. |
| Combat.EnemyShotMeetsPlayer | src/main.js:392-396 | an enemy projectile hits the player exactly when it reaches the player's top edge and overlaps horizontally; otherwise nothing changes |
| Combat.LivesCanGoBelowZero | src/main.js:403-418 | two hits at one life leave the counter at -1 |
| Combat.ResolveKill | src/main.js:457-486 | a kill counts only if both the enemy and the projectile are still present, and then adds exactly 100 to the score and 1 to the kills; otherwise nothing changes |
| Combat.KillRemovesThePair | src/main.js:464-482 | a kill that counts removes the named enemy and projectile and nothing else. No other object is lost or added, and with distinct identities each array shrinks by exactly one. |
| Combat.NoDoubleScoring | src/main.js:464-470 | two projectiles hitting the same enemy in one frame score once |
| Combat.ResolveKillAsWritten | src/main.js:464-482 | the kill as written removes the elements at the indices captured during the scan, whatever now sits there |
| Combat.StaleIndexRemovesWrongInvader | src/main.js:457-482 | with enemies A, B, C and projectiles P, Q, where P hits A and Q hits B in one frame, the code as written leaves B and Q and removes C |
| Combat.IdentityRemovalKeepsUntouchedInvader | src/main.js:457-482 | in the same frame, removal by identity leaves only C and no projectiles, for the same score |
| Combat.HitBoss | src/main.js:517-552 | a hit on a loaded mothership takes one health point. At zero it pays exactly 2000, notes the kill count and removes the mothership. A hit before loading never defeats it. |
| Combat.BossFallsOnce | src/main.js:517-552 | a mothership with health h survives n < h hits with h - n health and no bonus. From h hits on it is gone and the bonus has been paid exactly once. |
| Combat.TwentyFiveHits | src/main.js:517-552 | a freshly loaded mothership falls on the 25th hit and not before |
| Combat.ApplyBossHit | src/main.js:517-518 | the hitting projectile is spliced out and the mothership takes the hit |
| Combat.BossPassAsWritten | src/main.js:510-554 | the pass as written: a projectile visited after the mothership is deleted throws, and it throws only then, with lives and kills untouched and no projectile added. The projectile that slides into a spliced slot is skipped, as `DefeatMidLoopThrows` shows. |
| Combat.BossPass | src/main.js:510-554 | the corrected pass over the projectiles: lives, kills and the game-over flag are untouched, and the score rises by 2000 exactly when the mothership falls. Each projectile spent is inside the mothership and costs a loaded one a health point, so one with health h falls exactly when h projectiles are spent and otherwise keeps at least one point. The projectile that slides into a spliced slot is skipped, so an overlapping projectile may stay in flight. An unloaded mothership spends projectiles and is never damaged. |
| Combat.BossPassSpendsHits | src/main.js:510-518 | the corrected pass spends only projectiles inside the mothership: none appears, every one spent overlaps it, and if any projectile still to be visited overlaps it, at least one is spent |
| Combat.BossPassSpendsOnlyHits | src/main.js:510-518 | the projectiles left are a sub-multiset of those before, and every one removed overlaps the mothership |
| Combat.BossPassSpendsSomeHit | src/main.js:510-518 | a projectile inside the mothership, at or after the starting index, means the pass spends at least one |
| Combat.BossPassAgrees | src/main.js:510-554 | wherever the pass as written completes, it ends in the same state as the corrected pass |
| Combat.DefeatMidLoopThrows | src/main.js:510-554 | a mothership on its last health point with three projectiles, the first inside it: the pass as written throws, and the corrected pass pays the bonus and keeps the other two |
| Combat.BossFireTurn | src/main.js:506-508 | the mothership's `shoot` runs only on every 180th frame; on other frames its cooldown and the enemy projectiles are unchanged |
| Combat.FramesAreCalls | src/main.js:506-508 | 180·n frames from a multiple of 180 make exactly n calls of `shoot` |
| Combat.FirstBossShotFrame | src/main.js:506-508 | counting frames from 0, a mothership with cooldown c fires nothing before frame 180·c, where it fires its first projectile |
| Combat.SpawnMothership | src/main.js:345-356 | with a mothership present nothing changes. Otherwise a new one appears, with a red popup at (W/2, H/3) living 120 frames. |
| Combat.SpawnStopsTrigger | src/main.js:345-370 | once the entry condition holds and a mothership is spawned, the condition is off and another spawn call changes nothing |
| Combat.KillsUntilBoss | src/main.js:146 | the announced kills until the mothership lie between 1 and 10, and reach a multiple of ten |
| Combat.NoTriggerBeforeCount | src/main.js:369 | no kill count strictly before the announced one triggers a mothership |
| Combat.BossReturnsAtSameKillCount | src/main.js:369 | a loaded mothership shot down while the kill count is a positive multiple of ten is due again at once, since the trigger does not remember the defeat |
| Combat.MaybeShoot | src/main.js:436-438 | an enemy fires exactly when its draw is below 0.001 |
| Combat.EnemyFireCount | src/main.js:432-438 | the enemy loop appends one projectile per draw below 0.001 and keeps the projectiles in flight |
| Combat.SpeedMultiplier | src/main.js:494 | wave w moves at 1 + 0.05·w times the base speed, capped at 2 from wave 20 on |
| Combat.SpeedMultiplierMonotone | src/main.js:494 | later waves are never slower |
| Combat.Replenish | src/main.js:490-500 | with more than ten enemies nothing changes. Otherwise the wave counter and the spawner's count rise by one, and the five enemies the spawner builds from the draws at the new wave's speed are appended: 30×30, above the screen, within that speed's ranges. |
| Combat.CheckGameOver | src/main.js:440-454 | the game is over exactly when it already was, an enemy is within 100 of the bottom, or the mothership has reached the bottom fifth of the screen; the score, lives and kills are unchanged |
| Combat.RuleAdvances | src/main.js:392-554 | every rule that changes the counters keeps score and kills from falling and lives from rising, never clears game over, and keeps a game with no life left over |
| Combat.RunRulesAdvance | src/main.js:392-554 | any sequence of those rules keeps the same invariant |
| Combat.GameCountersOnlyAdvance | src/main.js:291-300 | from the start of a game, whatever rules follow, the score and kills are never negative, lives never exceed 3, and the game is over once no life is left |

## Left out

- Canvas drawing, the HUD, menus, story slides, audio, camera shake and particles. They are rendering or browser APIs, and they do not affect the rules.
- `localStorage` and JSON. Only the transformation of the table is modelled. `JSON.parse` on corrupt stored data would throw, and the code has no fallback.
- The `setTimeout` and `setInterval` scheduling is replaced by events. The power timers are `Powers.Event`s. A deferred kill is one `Combat.ResolveKill` call.
- The deferred splices of off-screen particles and projectiles (src/main.js:380, 389, 425) are not modelled. They are bookkeeping of the same stale-index kind as the modelled kill.
- Player movement and `Player.js` are not part of this model. The player is a rectangle given by its caller.
- `Projectile.js` is not part of this model. A projectile's radius is a parameter, and its flight is not modelled.
- `Grid.js` is dead code, and `levelConfig` is unused data.
- Images load asynchronously. `Boss.Load` is the mothership's `onload`, and the image's size is a parameter.
- Positions and velocities are JavaScript doubles. They are modelled as exact reals, with no claims about rounding.
- Leaderboard.LowerChar: maps only the ASCII letters. `toLowerCase` also folds other scripts; that mapping is a large table outside the game's rules.
- Leaderboard.SortByScore: the contract states sortedness and permutation but not stability. The model sorts stably, as every current JavaScript engine does.
- Combat.HitBoss: the popups created for hits and for the mothership's defeat are not added to the popup list by `Combat.HitBoss` or `Combat.ResolveKill`. Only their counters are modelled.
- Combat.CheckGameOver: the check does not stop the frame. In the code, a `return` at an enemy that reached the bottom leaves only that enemy's callback. The later `game.active = false` and the 500 ms menu timer are not modelled.
- Combat.ResolvePlayerHit: the player's opacity flash, and the end of the animation 1.5 s later, are not modelled. Only one hit is modelled, not the frame's whole pass over the enemy projectiles (src/main.js:387-420). In that pass the immediate `splice` at lines 399 and 406 runs inside `forEach`, so the projectile after a hit slides into the freed slot and is neither moved nor tested that frame.
- The overlap test that schedules a deferred kill (src/main.js:457-462) is not modelled. The enemy and projectile of a kill are parameters of `Combat.ResolveKill`.
- Boss.Update: the low-health health bar and flash colour are drawing only.

## Findings

| source | as written | input that shows it | evidently intended | confidence | as-written member | corrected member |
|---|---|---|---|---|---|---|
| src/main.js:481-482 | the deferred kill removes `invaders[i]` and `projectiles[j]`, using the indices captured during the scan | enemies A, B, C and projectiles P, Q; in one frame P hits A (0, 0) and Q hits B (1, 1). The second kill removes C, which was not hit, and keeps B and Q. | remove the very enemy and projectile the identity check found | not executed | Combat.ResolveKillAsWritten | Combat.ResolveKill |
| src/main.js:510-553 | after `delete window.mothership`, the `forEach` over the projectiles goes on and reads `window.mothership.position` | a loaded mothership with health 1 and three projectiles, the first inside it. The third projectile's visit throws a `TypeError`, which ends the frame before the danger-zone check, the popups and `frames++`. | stop testing projectiles once the mothership is gone | not executed | Combat.BossPassAsWritten | Combat.BossPass |

The discrepancies are shown by `Combat.StaleIndexRemovesWrongInvader` and `Combat.DefeatMidLoopThrows`. The corrected definitions are covered by `Combat.NoDoubleScoring`, `Combat.IdentityRemovalKeepsUntouchedInvader` and `Combat.BossPassAgrees`.

=== FILE: boss.dfy ===
/** The mothership (src/classes/Mothership.js), a subclass of the enemy. It
    is created with the enemy constructor's state and only takes on its own
    size, speed, health and fire cooldown when its image has loaded. It sweeps
    sideways, and each time it meets the left or right edge it turns around
    and steps down. */
module Boss {
  import opened Common
  import opened Invaders

  const MothershipScale: real := 1.5
  /** How far the mothership drops at each edge. */
  const StepDown: real := 10.0
  const LoadedHealth: int := 25
  const LoadedCooldown: int := 60
  /** Calls of `shoot` between two shots, counted down from here. */
  const FireCooldown: int := 40
  /** At or below this health the mothership jitters. */
  const LowHealth: int := 5

  /** `health` and `cooldown` are `undefined` in the source until the image
      loads; `undefined > 0` is false exactly as `0 > 0` is, so an unloaded
      cooldown is 0 here, and an unloaded health is never read (see
      `Update` and `Combat.HitBoss`). */
  datatype Mothership = Mothership(
    x: real, y: real, vx: real, vy: real, width: real, height: real,
    health: int, cooldown: int, loaded: bool)

  /** `new Mothership(canvasWidth)`: the enemy constructor's state, centred
      150 to the left of the middle and 80 from the top. */
  function NewMothership(canvasWidth: real, dir: Draw, speed: Draw): (m: Mothership)
    ensures !m.loaded && m.cooldown == 0
    ensures m.x == canvasWidth / 2.0 - 150.0 && m.y == 80.0
    ensures m.width == InvaderSize && m.height == InvaderSize
    ensures -1.0 <= m.vx < 1.0 && 0.5 <= m.vy < 1.0
  {
    var inv := NewInvader(0, canvasWidth / 2.0 - 150.0, 80.0, 1.0, dir, speed);
    Mothership(inv.x, inv.y, inv.vx, inv.vy, inv.width, inv.height, 0, 0, false)
  }

  /** The image's `onload`: the sprite scaled by 1.5, velocity (2.5, 0),
      health 25 and fire cooldown 60. */
  function Load(m: Mothership, imageWidth: real, imageHeight: real): (r: Mothership)
    ensures r.loaded && r.health == 25 && r.cooldown == 60
    ensures r.vx == 2.5 && r.vy == 0.0
    ensures r.width == imageWidth * 1.5 && r.height == imageHeight * 1.5
    ensures r.x == m.x && r.y == m.y
  {
    m.(width := imageWidth * MothershipScale, height := imageHeight * MothershipScale,
       vx := 2.5, vy := 0.0, health := LoadedHealth, cooldown := LoadedCooldown, loaded := true)
  }

  /** The sweep of a mothership: move by `vx`; at the right edge clamp
      to it, head left and step down; otherwise at the left edge clamp to it,
      head right and step down. Vertical velocity is never applied. */
  function Sweep(m: Mothership, canvasWidth: real): (r: Mothership)
    ensures m.x + m.vx + m.width >= canvasWidth ==>
      r.x == canvasWidth - m.width && r.vx == -Abs(m.vx) && r.y == m.y + 10.0
    ensures m.x + m.vx + m.width < canvasWidth && m.x + m.vx <= 0.0 ==>
      r.x == 0.0 && r.vx == Abs(m.vx) && r.y == m.y + 10.0
    ensures m.x + m.vx + m.width < canvasWidth && m.x + m.vx > 0.0 ==>
      r == m.(x := m.x + m.vx)
    ensures r.width == m.width && r.height == m.height && r.vy == m.vy
    ensures r.health == m.health && r.cooldown == m.cooldown && r.loaded == m.loaded
  {
    var moved := m.(x := m.x + m.vx);
    if moved.x + moved.width >= canvasWidth then
      moved.(x := canvasWidth - moved.width, vx := -Abs(moved.vx), y := moved.y + StepDown)
    else if moved.x <= 0.0 then
      moved.(x := 0.0, vx := Abs(moved.vx), y := moved.y + StepDown)
    else
      moved
  }

  /** `Mothership.update`: the sweep, followed at low health by a random
      shake of under one unit sideways and under half a unit vertically
      (`jx`, `jy` are the draws). The guard meant to wait for the image never
      stops anything, because the enemy constructor has already set an image;
      so a mothership that has not loaded sweeps too, with the enemy's size
      and velocity, and never shakes, its health being `undefined`. */
  function Update(m: Mothership, canvasWidth: real, jx: Draw, jy: Draw): (r: Mothership)
    ensures !m.loaded || m.health > LowHealth ==> r == Sweep(m, canvasWidth)
    ensures m.loaded && m.health <= LowHealth ==>
      && -1.0 <= r.x - Sweep(m, canvasWidth).x < 1.0
      && -0.5 <= r.y - Sweep(m, canvasWidth).y < 0.5
      && r.(x := Sweep(m, canvasWidth).x, y := Sweep(m, canvasWidth).y) == Sweep(m, canvasWidth)
  {
    var s := Sweep(m, canvasWidth);
    if s.loaded && s.health <= LowHealth then
      s.(x := s.x + (jx - 0.5) * 2.0, y := s.y + (jy - 0.5) * 1.0)
    else s
  }

  /** A sweep leaves a mothership that fits the canvas inside it, wherever it
      started. */
  lemma SweepStaysOnCanvas(m: Mothership, canvasWidth: real)
    requires 0.0 <= m.width <= canvasWidth
    ensures 0.0 <= Sweep(m, canvasWidth).x <= canvasWidth - m.width
    ensures Sweep(m, canvasWidth).y >= m.y
  {
  }

  /** `Mothership.shoot`: while the cooldown is positive a call only counts it
      down; otherwise one projectile leaves the bottom centre falling at 4 and
      the cooldown restarts at 40. */
  function Shoot(m: Mothership, shots: seq<EnemyShot>): (r: (Mothership, seq<EnemyShot>))
    ensures m.cooldown > 0 ==> r.0 == m.(cooldown := m.cooldown - 1) && r.1 == shots
    ensures m.cooldown <= 0 ==> r.0 == m.(cooldown := 40)
    ensures m.cooldown <= 0 ==> |r.1| == |shots| + 1 && r.1[..|shots|] == shots
    ensures m.cooldown <= 0 ==>
      r.1[|shots|] == EnemyShot(m.x + m.width / 2.0, m.y + m.height, 0.0, 4.0, 3.0, 10.0)
  {
    if m.cooldown > 0 then
      (m.(cooldown := m.cooldown - 1), shots)
    else
      (m.(cooldown := FireCooldown), shots + [NewEnemyShot(m.x + m.width / 2.0, m.y + m.height, 0.0, 4.0)])
  }

  /** `n` consecutive calls of `shoot`. */
  function ShootN(m: Mothership, shots: seq<EnemyShot>, n: nat): (Mothership, seq<EnemyShot>)
    decreases n
  {
    if n == 0 then (m, shots)
    else
      var (m', shots') := Shoot(m, shots);
      ShootN(m', shots', n - 1)
  }

  /** With cooldown `c >= 0`, the first `c` calls fire nothing and the next one
      fires exactly one projectile and restarts the cooldown at 40. */
  lemma {:induction false} FirstShotAfterCooldown(m: Mothership, shots: seq<EnemyShot>, n: nat)
    requires m.cooldown >= 0 && n <= m.cooldown
    ensures ShootN(m, shots, n) == (m.(cooldown := m.cooldown - n), shots)
    ensures |ShootN(m, shots, m.cooldown + 1).1| == |shots| + 1
    ensures ShootN(m, shots, m.cooldown + 1).0.cooldown == FireCooldown
    decreases n
  {
    if n > 0 {
      FirstShotAfterCooldown(m.(cooldown := m.cooldown - 1), shots, n - 1);
    } else {
      CountdownThenShot(m, shots);
    }
  }

  lemma {:induction false} CountdownThenShot(m: Mothership, shots: seq<EnemyShot>)
    requires m.cooldown >= 0
    ensures |ShootN(m, shots, m.cooldown + 1).1| == |shots| + 1
    ensures ShootN(m, shots, m.cooldown + 1).0.cooldown == FireCooldown
    decreases m.cooldown
  {
    if m.cooldown > 0 {
      CountdownThenShot(m.(cooldown := m.cooldown - 1), shots);
    }
  }

  /** The mothership's bottom edge has crossed 80% of the canvas height. */
  predicate InDangerZone(m: Mothership, canvasHeight: real)
  {
    m.y + m.height >= canvasHeight * 0.8
  }
}

=== FILE: combat.dfy ===
/** The rules of the frame update in src/main.js that change the game's
    counters: the player's fire gate, enemy shots hitting the player, player
    shots killing enemies and damaging the mothership, the mothership's entry,
    the refilling of the enemy pool and the end-of-game conditions. The
    browser clock is the `now` parameter; `Math.random()` values are draws. */
module Combat {
  import opened Common
  import opened Invaders
  import opened Boss
  import Popups
  import Spawner

  /** Milliseconds between player shots (`shotCooldown`), and with rapid fire. */
  const ShotGap: int := 200
  const RapidShotGap: int := 50
  const KillScore: int := 100
  const BossBonus: int := 2000
  /** A mothership is due at every tenth kill (`MOTHERSHIP_INTERVAL`). */
  const MothershipInterval: nat := 10
  /** A new wave is spawned while no more than this many enemies remain. */
  const MinInvaders: nat := 10
  const StartLives: int := 3

  /** The game's counters; `lastMothershipSpawn` is written when a mothership
      falls and never read. */
  datatype Status = Status(score: int, lives: int, kills: nat, over: bool, lastMothershipSpawn: int)

  /** A player projectile (`Projectile`); its radius comes from a class that
      is not part of this model and is a parameter. `id` is its identity. */
  datatype Shot = Shot(id: nat, x: real, y: real, vx: real, vy: real, radius: real)

  datatype Player = Player(x: real, y: real, width: real, height: real)

  /** The player's gun: the time of the last shot and the live projectiles. */
  datatype Gun = Gun(lastShotTime: int, shots: seq<Shot>)

  /** `startGame`'s counters: a fresh score, lives and kill count, and the
      game not over; `lastMothershipSpawn` is not reset and keeps the value
      the previous game left. */
  function NewGame(prev: Status): (st: Status)
    ensures st.score == 0 && st.lives == 3 && st.kills == 0 && !st.over
    ensures st.lastMothershipSpawn == prev.lastMothershipSpawn
  {
    prev.(score := 0, lives := StartLives, kills := 0, over := false)
  }

  // ---------------------------------------------------------------- firing

  function FireGap(rapidFireActive: bool): int
  {
    if rapidFireActive then RapidShotGap else ShotGap
  }

  /** `shootProjectile`: refused while less than the gap (50 ms with rapid
      fire, 200 ms without) has passed since the last shot; otherwise exactly
      one projectile leaves the middle of the player's top edge at (0, -10)
      and the shot time becomes `now`. */
  function ShootProjectile(g: Gun, now: int, rapidFireActive: bool, pl: Player, id: nat, radius: real)
    : (r: Gun)
    ensures rapidFireActive && now - g.lastShotTime < 50 ==> r == g
    ensures !rapidFireActive && now - g.lastShotTime < 200 ==> r == g
    ensures now - g.lastShotTime >= FireGap(rapidFireActive) ==>
      && r.lastShotTime == now
      && |r.shots| == |g.shots| + 1
      && r.shots[..|g.shots|] == g.shots
      && r.shots[|g.shots|] == Shot(id, pl.x + pl.width / 2.0, pl.y, 0.0, -10.0, radius)
  {
    if now - g.lastShotTime < FireGap(rapidFireActive) then g
    else Gun(now, g.shots + [Shot(id, pl.x + pl.width / 2.0, pl.y, 0.0, -10.0, radius)])
  }

  /** Fire attempts at the clock readings `times`, the i-th attempt's
      projectile taking identity `firstId + i`. */
  function FireAttempts(g: Gun, times: seq<int>, rapidFireActive: bool, pl: Player, firstId: nat, radius: real)
    : Gun
    decreases |times|
  {
    if |times| == 0 then g
    else FireAttempts(ShootProjectile(g, times[0], rapidFireActive, pl, firstId, radius),
                      times[1..], rapidFireActive, pl, firstId + 1, radius)
  }

  /** Fire rate: however often the trigger is pulled, the shots fired by the
      time `t` are at least one gap apart each, so `n` shots need `n` gaps
      after the previous shot time. */
  lemma {:induction false} FireRateBound(g: Gun, times: seq<int>, rapidFireActive: bool, pl: Player,
                                        firstId: nat, radius: real, t: int)
    requires forall k :: 0 <= k < |times| ==> times[k] <= t
    ensures var r := FireAttempts(g, times, rapidFireActive, pl, firstId, radius);
      && |r.shots| >= |g.shots|
      && r.lastShotTime >= g.lastShotTime + (|r.shots| - |g.shots|) * FireGap(rapidFireActive)
      && (|r.shots| > |g.shots| ==> r.lastShotTime <= t)
      && (|r.shots| == |g.shots| ==> r.lastShotTime == g.lastShotTime)
    decreases |times|
  {
    if |times| > 0 {
      var g' := ShootProjectile(g, times[0], rapidFireActive, pl, firstId, radius);
      FireRateBound(g', times[1..], rapidFireActive, pl, firstId + 1, radius, t);
    }
  }

  // ------------------------------------------------ enemy shots vs. player

  /** The overlap test for an enemy projectile and the player: at or below the
      player's top edge and horizontally overlapping. */
  predicate HitsPlayer(p: EnemyShot, pl: Player)
  {
    && p.y + p.height >= pl.y
    && p.x + p.width >= pl.x
    && p.x <= pl.x + pl.width
  }

  /** The check of the enemy projectile at index `i` against the player: on
      an overlap the projectile hits (`ResolvePlayerHit`); otherwise nothing
      changes. */
  function EnemyShotMeetsPlayer(st: Status, shieldActive: bool, shots: seq<EnemyShot>, i: nat, pl: Player)
    : (r: (Status, seq<EnemyShot>))
    requires i < |shots|
    ensures HitsPlayer(shots[i], pl) ==> r == ResolvePlayerHit(st, shieldActive, shots, i)
    ensures !HitsPlayer(shots[i], pl) ==> r == (st, shots)
  {
    if HitsPlayer(shots[i], pl) then ResolvePlayerHit(st, shieldActive, shots, i) else (st, shots)
  }

  /** An enemy projectile at index `i` has hit the player: it is removed
      either way; the shield absorbs it, otherwise one life is lost and the
      game is over once no life is left. */
  function ResolvePlayerHit(st: Status, shieldActive: bool, shots: seq<EnemyShot>, i: nat)
    : (r: (Status, seq<EnemyShot>))
    requires i < |shots|
    ensures |r.1| == |shots| - 1 && r.1 == RemoveAt(shots, i)
    ensures shieldActive ==> r.0 == st
    ensures !shieldActive ==> r.0 == st.(lives := st.lives - 1, over := st.over || st.lives - 1 <= 0)
  {
    var rest := RemoveAt(shots, i);
    if shieldActive then (st, rest)
    else
      var lives := st.lives - 1;
      (st.(lives := lives, over := if lives > 0 then st.over else true), rest)
  }

  /** Hits keep coming until the game stops 1.5 s later: a second hit at one
      life leaves the lives counter at -1. */
  lemma LivesCanGoBelowZero(st: Status, shots: seq<EnemyShot>)
    requires st.lives == 1 && |shots| >= 2
    ensures var (st1, shots1) := ResolvePlayerHit(st, false, shots, 0);
      && st1.lives == 0 && st1.over
      && ResolvePlayerHit(st1, false, shots1, 0).0.lives == -1
  {
  }

  // --------------------------------------------- player shots vs. enemies

  datatype Field = Field(status: Status, invaders: seq<Invader>, shots: seq<Shot>)

  function InvaderIs(id: nat): Invader -> bool
  {
    (inv: Invader) => inv.id == id
  }

  function ShotIs(id: nat): Shot -> bool
  {
    (s: Shot) => s.id == id
  }

  predicate HasInvader(invaders: seq<Invader>, id: nat)
  {
    exists k :: 0 <= k < |invaders| && invaders[k].id == id
  }

  predicate HasShot(shots: seq<Shot>, id: nat)
  {
    exists k :: 0 <= k < |shots| && shots[k].id == id
  }

  predicate DistinctInvaders(invaders: seq<Invader>)
  {
    forall a, b :: 0 <= a < b < |invaders| ==> invaders[a].id != invaders[b].id
  }

  predicate DistinctShots(shots: seq<Shot>)
  {
    forall a, b :: 0 <= a < b < |shots| ==> shots[a].id != shots[b].id
  }

  /** The deferred kill for one overlapping enemy/projectile pair: it counts
      only if both are still in their arrays, and then adds 100 to the score
      and 1 to the kills and removes the two objects by identity (see
      `KillRemovesThePair`). */
  function ResolveKill(f: Field, invaderId: nat, shotId: nat): (r: Field)
    ensures !(HasInvader(f.invaders, invaderId) && HasShot(f.shots, shotId)) ==> r == f
    ensures HasInvader(f.invaders, invaderId) && HasShot(f.shots, shotId) ==>
      r.status == f.status.(score := f.status.score + 100, kills := f.status.kills + 1)
  {
    if HasInvader(f.invaders, invaderId) && HasShot(f.shots, shotId) then
      Field(f.status.(score := f.status.score + KillScore, kills := f.status.kills + 1),
            Filter(f.invaders, InvaderIs(invaderId)), Filter(f.shots, ShotIs(shotId)))
    else f
  }

  /** A kill that counts removes exactly the enemy and the projectile it
      names: neither is left, every other enemy and projectile stays, nothing
      new appears, and with distinct identities each array shrinks by one. */
  lemma KillRemovesThePair(f: Field, invaderId: nat, shotId: nat)
    requires HasInvader(f.invaders, invaderId) && HasShot(f.shots, shotId)
    ensures var r := ResolveKill(f, invaderId, shotId);
      && !HasInvader(r.invaders, invaderId) && !HasShot(r.shots, shotId)
      && (forall k :: 0 <= k < |f.invaders| && f.invaders[k].id != invaderId ==> f.invaders[k] in r.invaders)
      && (forall k :: 0 <= k < |r.invaders| ==> r.invaders[k] in f.invaders)
      && (forall k :: 0 <= k < |f.shots| && f.shots[k].id != shotId ==> f.shots[k] in r.shots)
      && (forall k :: 0 <= k < |r.shots| ==> r.shots[k] in f.shots)
      && (DistinctInvaders(f.invaders) ==> |r.invaders| == |f.invaders| - 1)
      && (DistinctShots(f.shots) ==> |r.shots| == |f.shots| - 1)
  {
    FilterSpec(f.invaders, InvaderIs(invaderId));
    FilterSpec(f.shots, ShotIs(shotId));
    FilterOneInvader(f.invaders, invaderId);
    FilterOneShot(f.shots, shotId);
  }

  /** With distinct identities, removing a present enemy by identity removes one. */
  lemma FilterOneInvader(invaders: seq<Invader>, id: nat)
    requires HasInvader(invaders, id)
    ensures DistinctInvaders(invaders) ==> |Filter(invaders, InvaderIs(id))| == |invaders| - 1
  {
    FilterSpec(invaders, InvaderIs(id));
    if DistinctInvaders(invaders) {
      var k :| 0 <= k < |invaders| && invaders[k].id == id;
      CountOne(invaders, InvaderIs(id), k);
    }
  }

  lemma FilterOneShot(shots: seq<Shot>, id: nat)
    requires HasShot(shots, id)
    ensures DistinctShots(shots) ==> |Filter(shots, ShotIs(id))| == |shots| - 1
  {
    FilterSpec(shots, ShotIs(id));
    if DistinctShots(shots) {
      var j :| 0 <= j < |shots| && shots[j].id == id;
      CountOne(shots, ShotIs(id), j);
    }
  }

  /** No double scoring: when two projectiles hit the same enemy in one frame,
      the second deferred kill finds the enemy gone and changes nothing, so
      the score rises by one kill's worth. */
  lemma NoDoubleScoring(f: Field, invaderId: nat, shot1: nat, shot2: nat)
    requires HasInvader(f.invaders, invaderId) && HasShot(f.shots, shot1)
    ensures var once := ResolveKill(f, invaderId, shot1);
      && ResolveKill(once, invaderId, shot2) == once
      && once.status.score == f.status.score + 100
  {
    KillRemovesThePair(f, invaderId, shot1);
  }

  /** The deferred kill as written: the identity test is the same, but the
      removal uses the indices `i` and `j` captured when the frame scanned the
      arrays, which earlier removals in the same frame may have shifted. */
  function ResolveKillAsWritten(f: Field, invaderId: nat, shotId: nat, i: nat, j: nat): (r: Field)
    ensures !(HasInvader(f.invaders, invaderId) && HasShot(f.shots, shotId)) ==> r == f
    ensures HasInvader(f.invaders, invaderId) && HasShot(f.shots, shotId) ==>
      && r.status.score == f.status.score + 100 && r.status.kills == f.status.kills + 1
      && r.invaders == RemoveAt(f.invaders, i) && r.shots == RemoveAt(f.shots, j)
  {
    if HasInvader(f.invaders, invaderId) && HasShot(f.shots, shotId) then
      Field(f.status.(score := f.status.score + KillScore, kills := f.status.kills + 1),
            RemoveAt(f.invaders, i), RemoveAt(f.shots, j))
    else f
  }

  /** Three enemies A, B, C and two projectiles P, Q; in one frame P hits A
      (indices 0, 0) and Q hits B (indices 1, 1). As written, the second
      removal takes index 1 of the already shortened arrays: B, which was
      hit, survives, C, which was not, disappears, and Q stays in flight. With
      removal by identity, only C remains and both projectiles are spent. */
  lemma StaleIndexRemovesWrongInvader(st: Status)
    ensures var f := Field(st, [EnemyA(), EnemyB(), EnemyC()], [ShotP(), ShotQ()]);
      var written := ResolveKillAsWritten(ResolveKillAsWritten(f, 1, 10, 0, 0), 2, 11, 1, 1);
      && written.invaders == [EnemyB()] && written.shots == [ShotQ()]
      && written.status.score == st.score + 200
  {
    var f := Field(st, [EnemyA(), EnemyB(), EnemyC()], [ShotP(), ShotQ()]);
    assert f.invaders[0].id == 1 && f.shots[0].id == 10;
    var w1 := ResolveKillAsWritten(f, 1, 10, 0, 0);
    assert w1.invaders == [EnemyB(), EnemyC()] && w1.shots == [ShotQ()];
    assert w1.invaders[0].id == 2 && w1.shots[0].id == 11;
  }

  /** The same frame with removal by identity: both hit enemies and both
      projectiles are gone, and the score is the same. */
  lemma IdentityRemovalKeepsUntouchedInvader(st: Status)
    ensures var f := Field(st, [EnemyA(), EnemyB(), EnemyC()], [ShotP(), ShotQ()]);
      var intended := ResolveKill(ResolveKill(f, 1, 10), 2, 11);
      && intended.invaders == [EnemyC()] && intended.shots == []
      && intended.status.score == st.score + 200
  {
    FirstIdentityKill(st);
    SecondIdentityKill(st.(score := st.score + KillScore, kills := st.kills + 1));
  }

  lemma FirstIdentityKill(st: Status)
    ensures ResolveKill(Field(st, [EnemyA(), EnemyB(), EnemyC()], [ShotP(), ShotQ()]), 1, 10)
      == Field(st.(score := st.score + 100, kills := st.kills + 1), [EnemyB(), EnemyC()], [ShotQ()])
  {
    var f := Field(st, [EnemyA(), EnemyB(), EnemyC()], [ShotP(), ShotQ()]);
    assert HasInvader(f.invaders, 1) by { assert f.invaders[0].id == 1; }
    assert HasShot(f.shots, 10) by { assert f.shots[0].id == 10; }
    ResolveKillValue(f, 1, 10);
    assert Filter(f.invaders, InvaderIs(1)) == [EnemyB(), EnemyC()] by { FilterEnemyA(); }
    assert Filter(f.shots, ShotIs(10)) == [ShotQ()] by { FilterShotP(); }
  }

  lemma SecondIdentityKill(st: Status)
    ensures ResolveKill(Field(st, [EnemyB(), EnemyC()], [ShotQ()]), 2, 11)
      == Field(st.(score := st.score + 100, kills := st.kills + 1), [EnemyC()], [])
  {
    var f := Field(st, [EnemyB(), EnemyC()], [ShotQ()]);
    assert HasInvader(f.invaders, 2) by { assert f.invaders[0].id == 2; }
    assert HasShot(f.shots, 11) by { assert f.shots[0].id == 11; }
    ResolveKillValue(f, 2, 11);
    assert Filter(f.invaders, InvaderIs(2)) == [EnemyC()] by { FilterEnemyB(); }
    assert Filter(f.shots, ShotIs(11)) == [] by { FilterShotQ(); }
  }

  lemma FilterShotQ()
    ensures Filter([ShotQ()], ShotIs(11)) == []
  {
    FilterCons(ShotQ(), [], ShotIs(11));
    assert [ShotQ()] == [ShotQ()] + [];
  }

  lemma FilterEnemyA()
    ensures Filter([EnemyA(), EnemyB(), EnemyC()], InvaderIs(1)) == [EnemyB(), EnemyC()]
  {
    FilterCons(EnemyC(), [], InvaderIs(1));
    FilterCons(EnemyB(), [EnemyC()], InvaderIs(1));
    FilterCons(EnemyA(), [EnemyB(), EnemyC()], InvaderIs(1));
    assert [EnemyA(), EnemyB(), EnemyC()] == [EnemyA()] + [EnemyB(), EnemyC()];
  }

  lemma FilterShotP()
    ensures Filter([ShotP(), ShotQ()], ShotIs(10)) == [ShotQ()]
  {
    FilterCons(ShotQ(), [], ShotIs(10));
    FilterCons(ShotP(), [ShotQ()], ShotIs(10));
    assert [ShotP(), ShotQ()] == [ShotP()] + [ShotQ()];
  }

  lemma FilterEnemyB()
    ensures Filter([EnemyB(), EnemyC()], InvaderIs(2)) == [EnemyC()]
  {
    FilterCons(EnemyC(), [], InvaderIs(2));
    FilterCons(EnemyB(), [EnemyC()], InvaderIs(2));
  }

  /** A kill that counts, as a value. */
  lemma ResolveKillValue(f: Field, invaderId: nat, shotId: nat)
    requires HasInvader(f.invaders, invaderId) && HasShot(f.shots, shotId)
    ensures ResolveKill(f, invaderId, shotId) == Field(
      f.status.(score := f.status.score + 100, kills := f.status.kills + 1),
      Filter(f.invaders, InvaderIs(invaderId)), Filter(f.shots, ShotIs(shotId)))
  {
  }

  function EnemyA(): Invader { Invader(1, 0.0, 0.0, 0.0, 0.0, 30.0, 30.0) }
  function EnemyB(): Invader { Invader(2, 100.0, 0.0, 0.0, 0.0, 30.0, 30.0) }
  function EnemyC(): Invader { Invader(3, 200.0, 0.0, 0.0, 0.0, 30.0, 30.0) }
  function ShotP(): Shot { Shot(10, 0.0, 0.0, 0.0, -10.0, 4.0) }
  function ShotQ(): Shot { Shot(11, 100.0, 0.0, 0.0, -10.0, 4.0) }

  // ------------------------------------------- player shots vs. mothership

  /** The overlap test for a player projectile's centre and the mothership. */
  predicate HitsBoss(s: Shot, m: Mothership)
  {
    && s.x >= m.x
    && s.x <= m.x + m.width
    && s.y <= m.y + m.height
    && s.y >= m.y
  }

  /** One hit on the mothership: health drops by one, and when it reaches
      zero the 2000 bonus is paid, the kill count is noted and the mothership
      is gone. Before its image loads the health is `undefined`; decrementing
      it gives NaN, which is never `<= 0`, and loading resets it, so such a
      hit changes nothing. */
  function HitBoss(st: Status, m: Mothership): (r: (Status, Option<Mothership>))
    ensures !m.loaded ==> r == (st, Some(m))
    ensures m.loaded && m.health > 1 ==> r == (st, Some(m.(health := m.health - 1)))
    ensures m.loaded && m.health <= 1 ==>
      r.0 == st.(score := st.score + 2000, lastMothershipSpawn := st.kills) && r.1 == None
  {
    if !m.loaded then (st, Some(m))
    else
      var health := m.health - 1;
      if health <= 0 then (st.(score := st.score + BossBonus, lastMothershipSpawn := st.kills), None)
      else (st, Some(m.(health := health)))
  }

  /** `n` hits, stopping once the mothership is gone. */
  function HitBossN(st: Status, m: Option<Mothership>, n: nat): (Status, Option<Mothership>)
    decreases n
  {
    if n == 0 || m.None? then (st, m)
    else
      var (st', m') := HitBoss(st, m.value);
      HitBossN(st', m', n - 1)
  }

  /** A loaded mothership with health `h >= 1` survives `n < h` hits with
      `h - n` health and no bonus, and from `h` hits on it is gone with the
      bonus paid exactly once. */
  lemma {:induction false} BossFallsOnce(st: Status, m: Mothership, n: nat)
    requires m.loaded && m.health >= 1
    ensures n < m.health ==> HitBossN(st, Some(m), n) == (st, Some(m.(health := m.health - n)))
    ensures n >= m.health ==>
      HitBossN(st, Some(m), n) == (st.(score := st.score + 2000, lastMothershipSpawn := st.kills), None)
    decreases n
  {
    if n > 0 {
      if m.health > 1 {
        BossFallsOnce(st, m.(health := m.health - 1), n - 1);
      } else {
        var st' := st.(score := st.score + BossBonus, lastMothershipSpawn := st.kills);
        assert HitBossN(st, Some(m), n) == HitBossN(st', None, n - 1);
      }
    }
  }

  /** The 25 hits a freshly loaded mothership takes pay the bonus once. */
  lemma TwentyFiveHits(st: Status, m: Mothership, imageWidth: real, imageHeight: real)
    ensures HitBossN(st, Some(Load(m, imageWidth, imageHeight)), 25)
      == (st.(score := st.score + 2000, lastMothershipSpawn := st.kills), None)
    ensures HitBossN(st, Some(Load(m, imageWidth, imageHeight)), 24).0 == st
  {
    BossFallsOnce(st, Load(m, imageWidth, imageHeight), 25);
    BossFallsOnce(st, Load(m, imageWidth, imageHeight), 24);
  }

  /** What the mothership section of a frame works on. */
  datatype Frame = Frame(status: Status, boss: Option<Mothership>, shots: seq<Shot>)

  /** A frame either completes or is cut short by a thrown `TypeError`. */
  datatype Outcome = Completed(frame: Frame) | Thrown(frame: Frame)

  /** The hit on the mothership by the projectile at index `k`: the
      projectile is spliced out and the mothership takes the hit. */
  function ApplyBossHit(f: Frame, k: nat): (r: Frame)
    requires f.boss.Some? && k < |f.shots|
    ensures r.shots == RemoveAt(f.shots, k)
    ensures (r.status, r.boss) == HitBoss(f.status, f.boss.value)
  {
    var (st, boss) := HitBoss(f.status, f.boss.value);
    Frame(st, boss, RemoveAt(f.shots, k))
  }

  /** The projectile loop against the mothership as written, from index `k`.
      `forEach` skips indices past the shortened end, so the projectile that
      slides into a spliced slot is not visited this frame; and once the
      mothership has been deleted, the next visited projectile reads
      `window.mothership.position` and throws. */
  function BossPassAsWritten(f: Frame, k: nat): (r: Outcome)
    ensures f.boss.None? && k < |f.shots| ==> r == Thrown(f)
    ensures r.Thrown? ==> r.frame.boss.None? && |r.frame.shots| > k
    ensures r.frame.status.lives == f.status.lives && r.frame.status.kills == f.status.kills
    ensures |r.frame.shots| <= |f.shots|
    decreases |f.shots| - k
  {
    if k >= |f.shots| then Completed(f)
    else if f.boss.None? then Thrown(f)
    else if HitsBoss(f.shots[k], f.boss.value) then BossPassAsWritten(ApplyBossHit(f, k), k + 1)
    else BossPassAsWritten(f, k + 1)
  }

  /** The projectile loop against the mothership with the loop left as soon
      as the mothership is gone. The frame's counters other than the score
      are untouched, the score rises by the 2000 bonus exactly when the
      mothership falls during the pass and is unchanged otherwise, and the
      mothership never regains health. Every projectile spent is inside
      the mothership and costs a loaded one a point of health, so a loaded
      mothership with health `h` falls exactly when `h` projectiles are
      spent and otherwise keeps at least one point; an unloaded one spends
      projectiles and is never damaged. The projectile that slides into a
      spliced slot is skipped, so an overlapping projectile may stay in
      flight. */
  function BossPass(f: Frame, k: nat): (r: Frame)
    ensures r.status.lives == f.status.lives && r.status.kills == f.status.kills
    ensures r.status.over == f.status.over
    ensures f.boss.Some? && r.boss.None? ==> r.status.score == f.status.score + 2000
    ensures f.boss.None? || r.boss.Some? ==> r.status.score == f.status.score
    ensures f.boss.None? ==> r == f
    ensures r.boss.Some? ==> f.boss.Some? && r.boss.value.health <= f.boss.value.health
    ensures |r.shots| <= |f.shots|
    ensures f.boss.Some? && f.boss.value.loaded && r.boss.Some? ==>
      f.boss.value.health - r.boss.value.health == |f.shots| - |r.shots|
    ensures f.boss.Some? && f.boss.value.loaded && f.boss.value.health >= 1 && r.boss.None? ==>
      |f.shots| - |r.shots| == f.boss.value.health
    ensures f.boss.Some? && r.boss.None? ==> |r.shots| < |f.shots|
    ensures f.boss.Some? && !f.boss.value.loaded ==> r.boss == f.boss
    ensures f.boss.Some? && f.boss.value.loaded && f.boss.value.health >= 1 && r.boss.Some? ==>
      r.boss.value.health >= 1
    ensures f.boss.Some? && f.boss.value.loaded && f.boss.value.health >= 1 ==>
      (r.boss.None? <==> |f.shots| - |r.shots| == f.boss.value.health)
    decreases |f.shots| - k
  {
    if k >= |f.shots| || f.boss.None? then f
    else if HitsBoss(f.shots[k], f.boss.value) then BossPass(ApplyBossHit(f, k), k + 1)
    else BossPass(f, k + 1)
  }

  /** The pass spends only projectiles inside the mothership: none appears,
      every one spent overlaps it, and when some projectile still to be
      visited overlaps it, at least one is spent. */
  lemma BossPassSpendsHits(f: Frame, k: nat)
    ensures f.boss.Some? ==> multiset(BossPass(f, k).shots) <= multiset(f.shots)
    ensures f.boss.Some? ==> forall s :: s in multiset(f.shots) - multiset(BossPass(f, k).shots) ==>
      HitsBoss(s, f.boss.value)
    ensures f.boss.Some? && (exists j :: k <= j < |f.shots| && HitsBoss(f.shots[j], f.boss.value)) ==>
      |BossPass(f, k).shots| < |f.shots|
  {
    BossPassSpendsOnlyHits(f, k);
    BossPassSpendsSomeHit(f, k);
  }

  /** Every projectile the pass spends overlaps the mothership. */
  lemma {:induction false} BossPassSpendsOnlyHits(f: Frame, k: nat)
    ensures f.boss.Some? ==> multiset(BossPass(f, k).shots) <= multiset(f.shots)
    ensures f.boss.Some? ==> forall s :: s in multiset(f.shots) - multiset(BossPass(f, k).shots) ==>
      HitsBoss(s, f.boss.value)
    decreases |f.shots| - k
  {
    if k < |f.shots| && f.boss.Some? {
      if HitsBoss(f.shots[k], f.boss.value) {
        var g := ApplyBossHit(f, k);
        assert BossPass(f, k) == BossPass(g, k + 1);
        SpliceMultiset(f.shots, k);
        if g.boss.Some? {
          BossPassSpendsOnlyHits(g, k + 1);
          SpentStep(multiset(f.shots), multiset(g.shots), multiset(BossPass(g, k + 1).shots),
                    f.shots[k], f.boss.value, g.boss.value);
        } else {
          SpentStep(multiset(f.shots), multiset(g.shots), multiset(g.shots),
                    f.shots[k], f.boss.value, f.boss.value);
        }
      } else {
        BossPassSpendsOnlyHits(f, k + 1);
      }
    }
  }

  /** One hit of the pass: `a` is what is left after the hit `x` plus `x`,
      and `c` is what the rest of the pass keeps of `b`, spending only
      projectiles inside the mothership `m'`, which has the outline of `m`. */
  lemma SpentStep(a: multiset<Shot>, b: multiset<Shot>, c: multiset<Shot>, x: Shot, m: Mothership, m': Mothership)
    requires a == b + multiset{x} && c <= b && HitsBoss(x, m)
    requires m'.x == m.x && m'.y == m.y && m'.width == m.width && m'.height == m.height
    requires forall s :: s in b - c ==> HitsBoss(s, m')
    ensures c <= a
    ensures forall s :: s in a - c ==> HitsBoss(s, m)
  {
    SpentAfterSplice(a, b, c, x);
  }

  /** A projectile still to be visited that overlaps the mothership means at
      least one projectile is spent. */
  lemma {:induction false} BossPassSpendsSomeHit(f: Frame, k: nat)
    ensures f.boss.Some? && (exists j :: k <= j < |f.shots| && HitsBoss(f.shots[j], f.boss.value)) ==>
      |BossPass(f, k).shots| < |f.shots|
    decreases |f.shots| - k
  {
    if k < |f.shots| && f.boss.Some? && !HitsBoss(f.shots[k], f.boss.value) {
      BossPassSpendsSomeHit(f, k + 1);
      if exists j :: k <= j < |f.shots| && HitsBoss(f.shots[j], f.boss.value) {
        var j :| k <= j < |f.shots| && HitsBoss(f.shots[j], f.boss.value);
        assert j != k;
      }
    }
  }

  /** Splicing one element out of a sequence removes exactly it from the
      multiset of its elements. */
  lemma SpliceMultiset<T>(s: seq<T>, k: nat)
    requires k < |s|
    ensures multiset(s) == multiset(RemoveAt(s, k)) + multiset{s[k]}
  {
    assert s == s[..k] + [s[k]] + s[k + 1..];
  }

  /** What is spent from `a = b + {x}` is `x` or something spent from `b`. */
  lemma SpentAfterSplice<T>(a: multiset<T>, b: multiset<T>, c: multiset<T>, x: T)
    requires a == b + multiset{x} && c <= b
    ensures c <= a
    ensures forall s :: s in a - c ==> s == x || s in b - c
  {
  }

  /** Wherever the loop as written completes, it agrees with the guarded loop. */
  lemma {:induction false} BossPassAgrees(f: Frame, k: nat)
    ensures BossPassAsWritten(f, k).Completed? ==> BossPassAsWritten(f, k).frame == BossPass(f, k)
    decreases |f.shots| - k
  {
    if k < |f.shots| && f.boss.Some? {
      if HitsBoss(f.shots[k], f.boss.value) {
        BossPassAgrees(ApplyBossHit(f, k), k + 1);
      } else {
        BossPassAgrees(f, k + 1);
      }
    }
  }

  /** A mothership on its last point of health and three projectiles, the
      first inside it: the first kills it, the second slides into slot 0 and is
      skipped, and visiting the third throws. */
  lemma DefeatMidLoopThrows(st: Status, m: Mothership, s: Shot, t: Shot)
    requires m.loaded && m.health == 1 && m.width >= 0.0 && m.height >= 0.0
    ensures var hit := Shot(0, m.x, m.y, 0.0, -10.0, 4.0);
      var f := Frame(st, Some(m), [hit, s, t]);
      && BossPassAsWritten(f, 0).Thrown?
      && BossPass(f, 0) == Frame(st.(score := st.score + 2000, lastMothershipSpawn := st.kills), None, [s, t])
  {
    var hit := Shot(0, m.x, m.y, 0.0, -10.0, 4.0);
    var f := Frame(st, Some(m), [hit, s, t]);
    assert HitsBoss(hit, m);
    var g := ApplyBossHit(f, 0);
    assert g.shots == [s, t];
    assert g.boss.None?;
  }

  /** Frames between the mothership's calls of `shoot`. */
  const BossFireEvery: nat := 180

  /** The mothership's turn to call `shoot` comes every 180th frame; on
      other frames its cooldown and the enemy projectiles are left alone. */
  function BossFireTurn(m: Mothership, frames: nat, shots: seq<EnemyShot>): (r: (Mothership, seq<EnemyShot>))
    ensures frames % BossFireEvery != 0 ==> r == (m, shots)
    ensures frames % BossFireEvery == 0 && m.cooldown > 0 ==> r.0.cooldown == m.cooldown - 1 && r.1 == shots
    ensures frames % BossFireEvery == 0 && m.cooldown <= 0 ==> r.0.cooldown == 40 && |r.1| == |shots| + 1
  {
    if frames % BossFireEvery == 0 then Boss.Shoot(m, shots) else (m, shots)
  }

  /** The mothership section's fire turns for `n` consecutive frames, the
      first numbered `frame`. */
  function BossFireFrames(m: Mothership, shots: seq<EnemyShot>, frame: nat, n: nat): (Mothership, seq<EnemyShot>)
    decreases n
  {
    if n == 0 then (m, shots)
    else
      var (m', shots') := BossFireTurn(m, frame, shots);
      BossFireFrames(m', shots', frame + 1, n - 1)
  }

  /** Running `a + b` frames is running `a` frames and then `b` more. */
  lemma {:induction false} BossFireFramesSplit(m: Mothership, shots: seq<EnemyShot>, frame: nat, a: nat, b: nat)
    ensures var (m', shots') := BossFireFrames(m, shots, frame, a);
      BossFireFrames(m, shots, frame, a + b) == BossFireFrames(m', shots', frame + a, b)
    decreases a
  {
    if a > 0 {
      var (m1, s1) := BossFireTurn(m, frame, shots);
      BossFireFramesSplit(m1, s1, frame + 1, a - 1, b);
    }
  }

  /** Frames strictly between two multiples of 180 leave everything alone. */
  lemma {:induction false} QuietFrames(m: Mothership, shots: seq<EnemyShot>, q: nat, r: nat, n: nat)
    requires 1 <= r && r + n <= BossFireEvery
    ensures BossFireFrames(m, shots, BossFireEvery * q + r, n) == (m, shots)
    decreases n
  {
    if n > 0 {
      FrameOffset(q, r);
      QuietFrames(m, shots, q, r + 1, n - 1);
    }
  }

  /** Frame `180q + r` is `r` frames past a multiple of 180. */
  lemma FrameOffset(q: nat, r: nat)
    requires r < BossFireEvery
    ensures (BossFireEvery * q + r) % BossFireEvery == r
  {
  }

  /** A block of 180 frames from a multiple of 180 is one call of `shoot`. */
  lemma OneBlock(m: Mothership, shots: seq<EnemyShot>, q: nat)
    ensures BossFireFrames(m, shots, BossFireEvery * q, BossFireEvery) == Boss.Shoot(m, shots)
  {
    var sh := Boss.Shoot(m, shots);
    assert BossFireFrames(m, shots, BossFireEvery * q, 1) == sh by {
      FrameOffset(q, 0);
    }
    BossFireFramesSplit(m, shots, BossFireEvery * q, 1, BossFireEvery - 1);
    QuietFrames(sh.0, sh.1, q, 1, BossFireEvery - 1);
  }

  /** Every block of 180 frames from a multiple of 180 makes exactly one call
      of `shoot`, so `180n` frames are `n` calls. */
  lemma {:induction false} FramesAreCalls(m: Mothership, shots: seq<EnemyShot>, q: nat, n: nat)
    ensures BossFireFrames(m, shots, BossFireEvery * q, BossFireEvery * n) == ShootN(m, shots, n)
    decreases n
  {
    if n > 0 {
      var sh := Boss.Shoot(m, shots);
      OneBlock(m, shots, q);
      BossFireFramesSplit(m, shots, BossFireEvery * q, BossFireEvery, BossFireEvery * (n - 1));
      FramesAreCalls(sh.0, sh.1, q + 1, n - 1);
      assert BossFireEvery * q + BossFireEvery == BossFireEvery * (q + 1);
      assert BossFireEvery + BossFireEvery * (n - 1) == BossFireEvery * n;
    }
  }

  /** Counting frames from 0, a mothership with cooldown `c` fires nothing
      through frame `180c - 1`, only counting its cooldown down to 0, and
      fires its first projectile on frame `180c`. */
  lemma FirstBossShotFrame(m: Mothership, shots: seq<EnemyShot>)
    requires m.cooldown >= 0
    ensures BossFireFrames(m, shots, 0, BossFireEvery * m.cooldown) == (m.(cooldown := 0), shots)
    ensures BossFireFrames(m, shots, 0, BossFireEvery * m.cooldown + 1).0.cooldown == FireCooldown
    ensures |BossFireFrames(m, shots, 0, BossFireEvery * m.cooldown + 1).1| == |shots| + 1
    ensures BossFireFrames(m, shots, 0, BossFireEvery * m.cooldown + 1).1[..|shots|] == shots
  {
    var c := m.cooldown;
    var m0 := m.(cooldown := 0);
    assert BossFireFrames(m, shots, 0, BossFireEvery * c) == (m0, shots) by {
      FramesAreCalls(m, shots, 0, c);
      FirstShotAfterCooldown(m, shots, c);
    }
    assert BossFireFrames(m, shots, 0, BossFireEvery * c + 1) == Boss.Shoot(m0, shots) by {
      BossFireFramesSplit(m, shots, 0, BossFireEvery * c, 1);
      FrameOffset(c, 0);
    }
  }

  // ---------------------------------------------------- mothership entry

  /** The entry condition checked every frame: a positive multiple of ten
      kills and no mothership present. */
  predicate ShouldSpawnBoss(kills: nat, bossPresent: bool)
  {
    kills > 0 && kills % MothershipInterval == 0 && !bossPresent
  }

  /** `spawnMothership`: nothing if one exists; otherwise a new mothership and
      a red alert popup in the upper third of the screen that lives 120
      frames. */
  function SpawnMothership(boss: Option<Mothership>, popups: seq<Popups.Popup>,
                           canvasWidth: real, canvasHeight: real, dir: Draw, speed: Draw, drift: Draw)
    : (r: (Option<Mothership>, seq<Popups.Popup>))
    ensures boss.Some? ==> r == (boss, popups)
    ensures boss.None? ==> r.0 == Some(NewMothership(canvasWidth, dir, speed))
    ensures boss.None? ==> |r.1| == |popups| + 1 && r.1[..|popups|] == popups
    ensures boss.None? ==>
      var p := r.1[|popups|];
      p.life == 120 && p.x == canvasWidth / 2.0 && p.y == canvasHeight / 3.0 && p.color == "#FF0000"
  {
    if boss.Some? then (boss, popups)
    else
      (Some(NewMothership(canvasWidth, dir, speed)),
       popups + [Popups.NewPopup(canvasWidth / 2.0, canvasHeight / 3.0, "", Some("#FF0000"), Some(120), drift)])
  }

  /** Once the entry condition holds and a mothership is spawned, the
      condition is off, and a second spawn call changes nothing: one
      mothership and one alert per entry. */
  lemma SpawnStopsTrigger(kills: nat, boss: Option<Mothership>, popups: seq<Popups.Popup>,
                          canvasWidth: real, canvasHeight: real, dir: Draw, speed: Draw, drift: Draw)
    requires ShouldSpawnBoss(kills, boss.Some?)
    ensures var (b, ps) := SpawnMothership(boss, popups, canvasWidth, canvasHeight, dir, speed, drift);
      && b.Some? && !ShouldSpawnBoss(kills, b.Some?)
      && |ps| == |popups| + 1
      && SpawnMothership(b, ps, canvasWidth, canvasHeight, dir, speed, drift) == (b, ps)
  {
  }

  /** The HUD's kills-until-mothership count: between 1 and 10, and exactly
      the number of further kills that reaches the next multiple of ten. */
  function KillsUntilBoss(kills: nat): (n: int)
    ensures 1 <= n <= 10
    ensures (kills + n) % MothershipInterval == 0
  {
    MothershipInterval - kills % MothershipInterval
  }

  /** No multiple of ten lies strictly between the current kills and the
      count the HUD announces. */
  lemma NoTriggerBeforeCount(kills: nat, j: nat)
    requires 0 < j < KillsUntilBoss(kills)
    ensures (kills + j) % MothershipInterval != 0
    ensures !ShouldSpawnBoss(kills + j, false)
  {
  }

  /** The entry condition does not remember that a mothership was just shot
      down: if it falls while the kill count is still a multiple of ten, the
      next frame brings a new one without another kill. */
  lemma BossReturnsAtSameKillCount(st: Status, m: Mothership)
    requires st.kills > 0 && st.kills % MothershipInterval == 0 && m.loaded && m.health <= 1
    ensures HitBoss(st, m).1.None?
    ensures ShouldSpawnBoss(HitBoss(st, m).0.kills, false)
  {
  }

  // ------------------------------------------------------ the enemy pool

  /** Enemy fire: each enemy shoots in a frame when its draw is below 0.001. */
  function MaybeShoot(inv: Invader, shots: seq<EnemyShot>, d: Draw): (r: seq<EnemyShot>)
    ensures d < 0.001 ==> r == Invaders.Shoot(inv, shots)
    ensures d >= 0.001 ==> r == shots
  {
    if d < 0.001 then Invaders.Shoot(inv, shots) else shots
  }

  /** The draw makes an enemy fire. */
  predicate Fires(d: Draw)
  {
    d < 0.001
  }

  /** The random fire of the enemy loop: the k-th enemy uses the k-th draw. */
  function EnemyFire(invaders: seq<Invader>, shots: seq<EnemyShot>, draws: seq<Draw>): seq<EnemyShot>
    requires |draws| == |invaders|
    decreases |invaders|
  {
    if |invaders| == 0 then shots
    else EnemyFire(invaders[1..], MaybeShoot(invaders[0], shots, draws[0]), draws[1..])
  }

  /** The enemy loop adds one projectile per draw below 0.001 and keeps the
      projectiles already in flight. */
  lemma {:induction false} EnemyFireCount(invaders: seq<Invader>, shots: seq<EnemyShot>, draws: seq<Draw>)
    requires |draws| == |invaders|
    ensures |EnemyFire(invaders, shots, draws)| == |shots| + Count(draws, Fires)
    ensures EnemyFire(invaders, shots, draws)[..|shots|] == shots
    decreases |invaders|
  {
    if |invaders| > 0 {
      var shots' := MaybeShoot(invaders[0], shots, draws[0]);
      EnemyFireCount(invaders[1..], shots', draws[1..]);
      var r := EnemyFire(invaders, shots, draws);
      assert r[..|shots'|] == shots';
      assert shots'[..|shots|] == shots;
      assert r[..|shots|] == r[..|shots'|][..|shots|];
    }
  }

  /** The speed multiplier of the `waveCount`-th wave: 5% faster per wave,
      capped at double speed. */
  function SpeedMultiplier(waveCount: nat): (m: real)
    ensures 1.0 <= m <= 2.0
    ensures waveCount <= 20 ==> m == 1.0 + 0.05 * (waveCount as real)
    ensures waveCount >= 20 ==> m == 2.0
  {
    Min(1.0 + (waveCount as real) * 0.05, 2.0)
  }

  lemma SpeedMultiplierMonotone(a: nat, b: nat)
    requires a <= b
    ensures SpeedMultiplier(a) <= SpeedMultiplier(b)
  {
  }

  /** The refill at the end of the enemy loop: with at most ten enemies left,
      the wave counter goes up and a wave at the new speed is appended. */
  method Replenish(sp: Spawner.Spawner, invaders: seq<Invader>, waveCount: nat,
                   draws: seq<Spawner.EnemyDraws>, firstId: nat)
    returns (sp': Spawner.Spawner, invaders': seq<Invader>, waveCount': nat)
    requires |draws| == Spawner.WaveSize
    ensures |invaders| > MinInvaders ==> sp' == sp && invaders' == invaders && waveCount' == waveCount
    ensures |invaders| <= MinInvaders ==>
      && waveCount' == waveCount + 1
      && sp'.spawnCount == sp.spawnCount + 1
      && sp' == sp.(spawnCount := sp.spawnCount + 1)
      && |invaders'| == |invaders| + 5
      && invaders'[..|invaders|] == invaders
      && (forall k :: 0 <= k < Spawner.WaveSize ==>
           invaders'[|invaders| + k] == Spawner.Spawned(sp, SpeedMultiplier(waveCount'), draws[k], firstId + k))
      && (forall k :: |invaders| <= k < |invaders'| ==>
           && -SpeedMultiplier(waveCount') <= invaders'[k].vx < SpeedMultiplier(waveCount')
           && 0.5 * SpeedMultiplier(waveCount') <= invaders'[k].vy < SpeedMultiplier(waveCount')
           && -250.0 < invaders'[k].y <= -50.0
           && invaders'[k].width == InvaderSize && invaders'[k].height == InvaderSize)
  {
    if |invaders| <= MinInvaders {
      waveCount' := waveCount + 1;
      var wave;
      sp', wave := Spawner.SpawnWave(sp, SpeedMultiplier(waveCount'), draws, firstId);
      invaders' := invaders + wave;
    } else {
      sp', invaders', waveCount' := sp, invaders, waveCount;
    }
  }

  // ------------------------------------------------------- end of the game

  /** An enemy within 100 of the bottom of the canvas ends the game. */
  predicate AtBottom(inv: Invader, canvasHeight: real)
  {
    inv.y >= canvasHeight - 100.0
  }

  /** The game-over checks of a frame: an enemy at the bottom, or the
      mothership in the danger zone, ends the game whatever the lives. */
  function CheckGameOver(st: Status, invaders: seq<Invader>, boss: Option<Mothership>, canvasHeight: real)
    : (r: Status)
    ensures r.over <==>
      || st.over
      || (exists k :: 0 <= k < |invaders| && AtBottom(invaders[k], canvasHeight))
      || (boss.Some? && InDangerZone(boss.value, canvasHeight))
    ensures r.score == st.score && r.lives == st.lives && r.kills == st.kills
  {
    var breached := (exists k :: 0 <= k < |invaders| && AtBottom(invaders[k], canvasHeight))
      || (boss.Some? && InDangerZone(boss.value, canvasHeight));
    st.(over := st.over || breached)
  }

  // ------------------------------------------------------- the counters

  /** The game's counter invariant: no life left means the game is over. */
  predicate Consistent(st: Status)
  {
    st.lives <= 0 ==> st.over
  }

  /** Counters only move one way: score and kills never fall, lives never
      rise, and a game once over stays over. */
  predicate Advances(a: Status, b: Status)
  {
    && a.score <= b.score && a.kills <= b.kills
    && b.lives <= a.lives
    && (a.over ==> b.over)
  }

  /** The frame rules that change the counters, with what each works on. */
  datatype Rule =
    | EnemyShotCheck(shieldActive: bool, enemyShots: seq<EnemyShot>, index: nat, pl: Player)
    | Kill(invaders: seq<Invader>, shots: seq<Shot>, invaderId: nat, shotId: nat)
    | BossHit(m: Mothership)
    | BossSection(boss: Option<Mothership>, shots: seq<Shot>)
    | GameOverCheck(invaders: seq<Invader>, boss: Option<Mothership>, canvasHeight: real)

  /** The counters after one rule; an index past the end of the enemy
      projectiles names no projectile and changes nothing. */
  function ApplyRule(st: Status, rule: Rule): Status
  {
    match rule
    case EnemyShotCheck(shieldActive, enemyShots, i, pl) =>
      if i < |enemyShots| then EnemyShotMeetsPlayer(st, shieldActive, enemyShots, i, pl).0 else st
    case Kill(invaders, shots, invaderId, shotId) =>
      ResolveKill(Field(st, invaders, shots), invaderId, shotId).status
    case BossHit(m) => HitBoss(st, m).0
    case BossSection(boss, shots) => BossPass(Frame(st, boss, shots), 0).status
    case GameOverCheck(invaders, boss, canvasHeight) => CheckGameOver(st, invaders, boss, canvasHeight)
  }

  function RunRules(st: Status, rules: seq<Rule>): Status
    decreases |rules|
  {
    if |rules| == 0 then st else RunRules(ApplyRule(st, rules[0]), rules[1..])
  }

  /** Every rule keeps the counter invariant and only advances the counters. */
  lemma RuleAdvances(st: Status, rule: Rule)
    requires Consistent(st)
    ensures Consistent(ApplyRule(st, rule)) && Advances(st, ApplyRule(st, rule))
  {
  }

  /** Any sequence of rules keeps the invariant and only advances the counters. */
  lemma {:induction false} RunRulesAdvance(st: Status, rules: seq<Rule>)
    requires Consistent(st)
    ensures Consistent(RunRules(st, rules)) && Advances(st, RunRules(st, rules))
    decreases |rules|
  {
    if |rules| > 0 {
      RuleAdvances(st, rules[0]);
      RunRulesAdvance(ApplyRule(st, rules[0]), rules[1..]);
    }
  }

  /** From the start of a game, whatever happens, the score and kills never
      fall, lives never rise, and the game is over once no life is left. */
  lemma GameCountersOnlyAdvance(prev: Status, rules: seq<Rule>)
    ensures var st := RunRules(NewGame(prev), rules);
      && Consistent(st) && st.score >= 0 && st.kills >= 0 && st.lives <= 3
  {
    RunRulesAdvance(NewGame(prev), rules);
  }
}

=== FILE: common.dfy ===
/** Shared vocabulary: optional values, random draws and the list surgery the
    game loop performs on its entity arrays. */
module Common {

  datatype Option<+T> = None | Some(value: T)

  /** One value returned by `Math.random()`: a real in [0, 1). */
  type Draw = r: real | 0.0 <= r < 1.0 witness 0.0

  /** `Math.abs` on a double, read as an exact real. */
  function Abs(x: real): (r: real)
    ensures r >= 0.0
    ensures r == x || r == -x
  {
    if x < 0.0 then -x else x
  }

  function Min(a: real, b: real): (r: real)
    ensures r <= a && r <= b
    ensures r == a || r == b
  {
    if a <= b then a else b
  }

  /** `Array.prototype.splice(i, 1)`: removes the element at index `i`, and
      does nothing when `i` is past the end of the array. */
  function RemoveAt<T>(s: seq<T>, i: nat): (r: seq<T>)
    ensures i < |s| ==> |r| == |s| - 1
    ensures i < |s| ==> forall k :: 0 <= k < i ==> r[k] == s[k]
    ensures i < |s| ==> forall k :: i <= k < |r| ==> r[k] == s[k + 1]
    ensures i >= |s| ==> r == s
  {
    if i < |s| then s[..i] + s[i + 1..] else s
  }

  /** Number of elements of `s` that `p` selects. */
  function Count<T>(s: seq<T>, p: T -> bool): (n: nat)
    ensures n <= |s|
    ensures n == 0 <==> forall k :: 0 <= k < |s| ==> !p(s[k])
  {
    if |s| == 0 then 0 else (if p(s[0]) then 1 else 0) + Count(s[1..], p)
  }

  /** The elements of `s` that `drop` does not select, in their original order. */
  function Filter<T>(s: seq<T>, drop: T -> bool): seq<T>
  {
    if |s| == 0 then []
    else if drop(s[0]) then Filter(s[1..], drop)
    else [s[0]] + Filter(s[1..], drop)
  }

  /** `Filter` keeps exactly the unselected elements: one fewer element per
      selected one, none of them selected, and every unselected one kept. */
  lemma {:induction false} FilterSpec<T>(s: seq<T>, drop: T -> bool)
    ensures |Filter(s, drop)| == |s| - Count(s, drop)
    ensures forall k :: 0 <= k < |Filter(s, drop)| ==> Filter(s, drop)[k] in s && !drop(Filter(s, drop)[k])
    ensures forall k :: 0 <= k < |s| && !drop(s[k]) ==> s[k] in Filter(s, drop)
  {
    if |s| > 0 {
      FilterSpec(s[1..], drop);
      var t := Filter(s[1..], drop);
      assert forall k :: 1 <= k < |s| ==> s[k] == s[1..][k - 1];
      if !drop(s[0]) {
        var r := Filter(s, drop);
        assert r == [s[0]] + t;
        assert forall k :: 1 <= k < |r| ==> r[k] == t[k - 1];
      }
    }
  }

  /** `Filter` on a sequence with a known first element. */
  lemma FilterCons<T>(x: T, s: seq<T>, drop: T -> bool)
    ensures Filter([x] + s, drop) == if drop(x) then Filter(s, drop) else [x] + Filter(s, drop)
  {
    assert ([x] + s)[1..] == s;
  }

  /** An element selected at exactly one index is counted once. */
  lemma {:induction false} CountOne<T>(s: seq<T>, p: T -> bool, i: nat)
    requires i < |s| && p(s[i])
    requires forall k :: 0 <= k < |s| && k != i ==> !p(s[k])
    ensures Count(s, p) == 1
  {
    if i == 0 {
      assert forall k :: 0 <= k < |s[1..]| ==> !p(s[1..][k]) by {
        forall k | 0 <= k < |s[1..]| ensures !p(s[1..][k]) {
          assert s[1..][k] == s[k + 1];
        }
      }
    } else {
      forall k | 0 <= k < |s[1..]| && k != i - 1 ensures !p(s[1..][k]) {
        assert s[1..][k] == s[k + 1];
      }
      CountOne(s[1..], p, i - 1);
    }
  }
}

=== FILE: invaders.dfy ===
/** An enemy (src/classes/Invader.js) and the projectile enemies fire
    (src/classes/InvaderProjectile.js). Positions and velocities are the
    JavaScript doubles read as exact reals; the sprite image only affects
    drawing and is not modelled. */
module Invaders {
  import opened Common

  /** Invaders are 30 by 30 whatever their image. */
  const InvaderSize: real := 30.0

  /** `id` stands for the object's identity, which the game loop compares
      with `===`. */
  datatype Invader = Invader(id: nat, x: real, y: real, vx: real, vy: real, width: real, height: real)

  /** An `InvaderProjectile`: 3 wide and 10 high. */
  datatype EnemyShot = EnemyShot(x: real, y: real, vx: real, vy: real, width: real, height: real)

  function NewEnemyShot(x: real, y: real, vx: real, vy: real): EnemyShot
  {
    EnemyShot(x, y, vx, vy, 3.0, 10.0)
  }

  /** `InvaderProjectile.update`: one step along the velocity. */
  function MoveEnemyShot(p: EnemyShot): (r: EnemyShot)
    ensures r.x - p.x == p.vx && r.y - p.y == p.vy
    ensures r.vx == p.vx && r.vy == p.vy && r.width == p.width && r.height == p.height
  {
    p.(x := p.x + p.vx, y := p.y + p.vy)
  }

  /** The constructor: `dir` and `speed` are the two `Math.random()` draws,
      scaled by the speed multiplier `m`. */
  function NewInvader(id: nat, x: real, y: real, m: real, dir: Draw, speed: Draw): (inv: Invader)
    ensures inv.id == id && inv.x == x && inv.y == y
    ensures inv.width == 30.0 && inv.height == 30.0
    ensures m > 0.0 ==> -m <= inv.vx < m
    ensures m > 0.0 ==> 0.5 * m <= inv.vy < m
    ensures m == 0.0 ==> inv.vx == 0.0 && inv.vy == 0.0
  {
    Invader(id, x, y, Drift(dir, m), Descent(speed, m), InvaderSize, InvaderSize)
  }

  /** Horizontal velocity: `(Math.random() - 0.5) * 2` times the multiplier. */
  function Drift(dir: Draw, m: real): (vx: real)
    ensures m > 0.0 ==> -m <= vx < m
    ensures m == 0.0 ==> vx == 0.0
  {
    DriftBounds(dir, m);
    (dir - 0.5) * 2.0 * m
  }

  /** Vertical velocity: `0.5 + Math.random() * 0.5` times the multiplier. */
  function Descent(speed: Draw, m: real): (vy: real)
    ensures m > 0.0 ==> 0.5 * m <= vy < m
    ensures m == 0.0 ==> vy == 0.0
  {
    DescentBounds(speed, m);
    (0.5 + speed * 0.5) * m
  }

  lemma DriftBounds(dir: Draw, m: real)
    ensures m > 0.0 ==> -m <= (dir - 0.5) * 2.0 * m < m
    ensures m == 0.0 ==> (dir - 0.5) * 2.0 * m == 0.0
  {
    assert (dir - 0.5) * 2.0 * m == 2.0 * (dir * m) - m;
    if m > 0.0 {
      assert 0.0 <= dir * m < m;
    }
  }

  lemma DescentBounds(speed: Draw, m: real)
    ensures m > 0.0 ==> 0.5 * m <= (0.5 + speed * 0.5) * m < m
    ensures m == 0.0 ==> (0.5 + speed * 0.5) * m == 0.0
  {
    assert (0.5 + speed * 0.5) * m == 0.5 * m + 0.5 * (speed * m);
    if m > 0.0 {
      assert 0.0 <= speed * m < m;
    }
  }

  /** The enemy touches the left or right edge of a canvas `canvasWidth` wide. */
  predicate AtEdge(inv: Invader, canvasWidth: real)
  {
    inv.x <= 0.0 || inv.x + inv.width >= canvasWidth
  }

  /** `Invader.update`: move by the velocity, then reverse horizontally when
      the new position touches either edge. */
  function Update(inv: Invader, canvasWidth: real): (r: Invader)
    ensures r.x == inv.x + inv.vx && r.y == inv.y + inv.vy
    ensures r.vy == inv.vy
    ensures AtEdge(r, canvasWidth) ==> r.vx == -inv.vx
    ensures !AtEdge(r, canvasWidth) ==> r.vx == inv.vx
    ensures r.id == inv.id && r.width == inv.width && r.height == inv.height
  {
    var moved := inv.(x := inv.x + inv.vx, y := inv.y + inv.vy);
    if AtEdge(moved, canvasWidth) then moved.(vx := -moved.vx) else moved
  }

  /** An invader keeps its speed: updates only ever flip the sign of `vx`. */
  lemma UpdateKeepsSpeed(inv: Invader, canvasWidth: real)
    ensures Abs(Update(inv, canvasWidth).vx) == Abs(inv.vx)
    ensures Update(inv, canvasWidth).vy == inv.vy
  {
  }

  /** Updates never change `vy`, so `n` updates move an invader down by
      exactly `n` times it. */
  lemma {:induction false} UpdatesDescend(inv: Invader, canvasWidth: real, n: nat)
    ensures Updates(inv, canvasWidth, n).y == inv.y + (n as real) * inv.vy
    ensures Updates(inv, canvasWidth, n).vy == inv.vy
    decreases n
  {
    if n > 0 {
      var next := Update(inv, canvasWidth);
      UpdatesDescend(next, canvasWidth, n - 1);
    }
  }

  function Updates(inv: Invader, canvasWidth: real, n: nat): Invader
    decreases n
  {
    if n == 0 then inv else Updates(Update(inv, canvasWidth), canvasWidth, n - 1)
  }

  /** `Invader.shoot`: one projectile from the bottom centre, falling at 5. */
  function Shoot(inv: Invader, shots: seq<EnemyShot>): (r: seq<EnemyShot>)
    ensures |r| == |shots| + 1 && r[..|shots|] == shots
    ensures r[|shots|].x == inv.x + inv.width / 2.0 && r[|shots|].y == inv.y + inv.height
    ensures r[|shots|].vx == 0.0 && r[|shots|].vy == 5.0
  {
    shots + [NewEnemyShot(inv.x + inv.width / 2.0, inv.y + inv.height, 0.0, 5.0)]
  }

  /** `n` frames of an enemy projectile's flight. */
  function MoveEnemyShotN(p: EnemyShot, n: nat): EnemyShot
    decreases n
  {
    if n == 0 then p else MoveEnemyShotN(MoveEnemyShot(p), n - 1)
  }

  /** A projectile travels in a straight line: after `n` frames it has moved
      `n` times its velocity, which is unchanged. */
  lemma {:induction false} ShotTravelsStraight(p: EnemyShot, n: nat)
    ensures MoveEnemyShotN(p, n).x == p.x + (n as real) * p.vx
    ensures MoveEnemyShotN(p, n).y == p.y + (n as real) * p.vy
    ensures MoveEnemyShotN(p, n).vx == p.vx && MoveEnemyShotN(p, n).vy == p.vy
    decreases n
  {
    if n > 0 {
      ShotTravelsStraight(MoveEnemyShot(p), n - 1);
    }
  }

  /** An enemy's projectile falls straight down from under its centre: `n`
      frames after `shoot` it is `5n` below the enemy's bottom edge. */
  lemma ShotFallsFromEnemy(inv: Invader, shots: seq<EnemyShot>, n: nat)
    ensures var p := MoveEnemyShotN(Shoot(inv, shots)[|shots|], n);
      && p.x == inv.x + inv.width / 2.0
      && p.y == inv.y + inv.height + 5.0 * (n as real)
  {
    ShotTravelsStraight(Shoot(inv, shots)[|shots|], n);
  }
}

=== FILE: leaderboard.dfy ===
/** The local high-score table (`saveToLeaderboard` in src/main.js). The
    table is a list of `{username, score, date}` records; recording a score
    upserts the player's record by case-insensitive name, sorts the list by
    score, highest first, and keeps the first ten entries. Reading and writing
    `localStorage` and the JSON text are not modelled: the operation is the
    pure transformation of the list. */
module Leaderboard {
  import opened Common

  /** The table keeps at most this many entries. */
  const MaxEntries: nat := 10

  /** `date` is the ISO text of `new Date()`, passed in by the caller. */
  datatype Entry = Entry(username: string, score: int, date: string)

  /** `String.prototype.toLowerCase` on one character, for the ASCII letters. */
  function LowerChar(c: char): char
  {
    if 'A' <= c <= 'Z' then (c as int + 32) as char else c
  }

  function Lower(s: string): string
  {
    seq(|s|, i requires 0 <= i < |s| => LowerChar(s[i]))
  }

  /** Two user names denote the same player when they agree after lower-casing. */
  predicate SameName(a: string, b: string)
  {
    Lower(a) == Lower(b)
  }

  predicate HasName(lb: seq<Entry>, name: string)
  {
    exists k :: 0 <= k < |lb| && SameName(lb[k].username, name)
  }

  /** Scores never increase along the list. */
  predicate SortedDesc(s: seq<Entry>)
  {
    forall i, j :: 0 <= i < j < |s| ==> s[i].score >= s[j].score
  }

  /** At most one entry per case-insensitive name. */
  predicate UniqueNames(s: seq<Entry>)
  {
    forall i, j :: 0 <= i < j < |s| ==> !SameName(s[i].username, s[j].username)
  }

  /** `findIndex` with the case-insensitive name test: the first matching index. */
  function FindIndex(lb: seq<Entry>, name: string): (r: Option<nat>)
    ensures r.Some? ==> r.value < |lb| && SameName(lb[r.value].username, name)
    ensures r.Some? ==> forall k :: 0 <= k < r.value ==> !SameName(lb[k].username, name)
    ensures r.None? <==> !HasName(lb, name)
  {
    if |lb| == 0 then None
    else if SameName(lb[0].username, name) then Some(0)
    else match FindIndex(lb[1..], name)
      case None =>
        assert forall k :: 1 <= k < |lb| ==> lb[k] == lb[1..][k - 1];
        None
      case Some(i) => Some(i + 1)
  }

  /** The record step: an existing player keeps the better of the old and the
      new score, and the date moves only when the score strictly improves; a
      new player is appended. */
  function Upsert(lb: seq<Entry>, name: string, score: int, now: string): (r: seq<Entry>)
    ensures HasName(lb, name) ==> |r| == |lb|
    ensures !HasName(lb, name) ==> |r| == |lb| + 1 && r[..|lb|] == lb
    ensures !HasName(lb, name) ==> r[|lb|] == Entry(name, score, now)
    ensures FindIndex(lb, name).Some? ==>
      var i := FindIndex(lb, name).value;
      && r[i].username == lb[i].username
      && r[i].score == (if score > lb[i].score then score else lb[i].score)
      && (r[i].date != lb[i].date ==> score > lb[i].score)
      && (score > lb[i].score ==> r[i].date == now)
      && forall k :: 0 <= k < |lb| && k != i ==> r[k] == lb[k]
  {
    match FindIndex(lb, name)
    case Some(i) =>
      if score > lb[i].score then lb[i := lb[i].(score := score, date := now)] else lb
    case None =>
      lb + [Entry(name, score, now)]
  }

  /** Places `e` in front of the first entry it does not score below, so `e`
      precedes every entry of equal score (the comparator `b.score - a.score`
      with a stable sort). */
  function Insert(e: Entry, s: seq<Entry>): (r: seq<Entry>)
    ensures |r| == |s| + 1
    ensures multiset(r) == multiset(s) + multiset{e}
    ensures r[0] == e || (|s| > 0 && r[0] == s[0])
  {
    if |s| == 0 || e.score >= s[0].score then
      [e] + s
    else
      assert s == [s[0]] + s[1..];
      [s[0]] + Insert(e, s[1..])
  }

  lemma {:induction false} InsertSorted(e: Entry, s: seq<Entry>)
    requires SortedDesc(s)
    ensures SortedDesc(Insert(e, s))
  {
    if |s| > 0 && e.score < s[0].score {
      var tail := s[1..];
      assert SortedDesc(tail) by {
        forall i, j | 0 <= i < j < |tail| ensures tail[i].score >= tail[j].score {
          assert tail[i] == s[i + 1] && tail[j] == s[j + 1];
        }
      }
      InsertSorted(e, tail);
      assert forall k :: 0 <= k < |tail| ==> s[0].score >= tail[k].score by {
        assert forall k :: 0 <= k < |tail| ==> tail[k] == s[k + 1];
      }
      InsertStaysBelow(s[0], e, tail);
      ConsSorted(s[0], Insert(e, tail));
    }
  }

  /** Inserting an entry scoring below `a` into a list scoring at most `a`
      gives a list scoring at most `a`. */
  lemma InsertStaysBelow(a: Entry, e: Entry, t: seq<Entry>)
    requires e.score < a.score
    requires forall k :: 0 <= k < |t| ==> a.score >= t[k].score
    ensures forall k :: 0 <= k < |Insert(e, t)| ==> a.score >= Insert(e, t)[k].score
  {
    var r := Insert(e, t);
    forall k | 0 <= k < |r| ensures a.score >= r[k].score {
      assert r[k] in multiset(r);
      if r[k] != e {
        assert r[k] in multiset(t);
        var j :| 0 <= j < |t| && t[j] == r[k];
      }
    }
  }

  /** A sorted list stays sorted under a head scoring at least as much as
      all of it. */
  lemma ConsSorted(a: Entry, t: seq<Entry>)
    requires SortedDesc(t)
    requires forall k :: 0 <= k < |t| ==> a.score >= t[k].score
    ensures SortedDesc([a] + t)
  {
    var r := [a] + t;
    forall i, j | 0 <= i < j < |r| ensures r[i].score >= r[j].score {
      assert r[j] == t[j - 1];
      if i > 0 {
        assert r[i] == t[i - 1];
      }
    }
  }

  /** `leaderboard.sort((a, b) => b.score - a.score)`, as a stable insertion sort. */
  function SortByScore(s: seq<Entry>): (r: seq<Entry>)
    ensures |r| == |s|
    ensures multiset(r) == multiset(s)
    ensures SortedDesc(r)
  {
    if |s| == 0 then []
    else
      assert s == [s[0]] + s[1..];
      var t := SortByScore(s[1..]);
      InsertSorted(s[0], t);
      Insert(s[0], t)
  }

  /** `slice(0, 10)`. */
  function Top(s: seq<Entry>): (r: seq<Entry>)
    ensures |r| <= MaxEntries
    ensures |s| <= MaxEntries ==> r == s
    ensures |s| > MaxEntries ==> r == s[..MaxEntries]
  {
    if |s| <= MaxEntries then s else s[..MaxEntries]
  }

  /** `saveToLeaderboard(username, score)` on the table read from storage. */
  function Save(lb: seq<Entry>, name: string, score: int, now: string): (r: seq<Entry>)
    ensures |r| <= MaxEntries
    ensures SortedDesc(r)
    ensures multiset(r) <= multiset(Upsert(lb, name, score, now))
    ensures |Upsert(lb, name, score, now)| <= MaxEntries ==>
      multiset(r) == multiset(Upsert(lb, name, score, now))
  {
    var sorted := SortByScore(Upsert(lb, name, score, now));
    PrefixSubMultiset(sorted, |Top(sorted)|);
    Top(sorted)
  }

  lemma PrefixSubMultiset(s: seq<Entry>, n: nat)
    requires n <= |s|
    ensures multiset(s[..n]) <= multiset(s)
  {
    assert s == s[..n] + s[n..];
  }

  /** After recording, the player's entry holds a score at least as high as the
      one recorded, unless the table is full of entries that all score at
      least as high. */
  lemma SaveKeepsBest(lb: seq<Entry>, name: string, score: int, now: string)
    ensures var r := Save(lb, name, score, now);
      || (exists k :: 0 <= k < |r| && SameName(r[k].username, name) && r[k].score >= score)
      || (|r| == MaxEntries && forall k :: 0 <= k < |r| ==> r[k].score >= score)
  {
    var x := UpsertRecords(lb, name, score, now);
    var s := SortByScore(Upsert(lb, name, score, now));
    assert x in multiset(s);
    TopKeepsOrBeats(s, x);
    var r := Save(lb, name, score, now);
    if x in r {
      var k :| 0 <= k < |r| && r[k] == x;
    }
  }

  /** The updated table holds an entry for the player with at least the
      recorded score. */
  lemma UpsertRecords(lb: seq<Entry>, name: string, score: int, now: string) returns (x: Entry)
    ensures x in Upsert(lb, name, score, now)
    ensures SameName(x.username, name) && x.score >= score
  {
    var u := Upsert(lb, name, score, now);
    var idx := match FindIndex(lb, name) case Some(i) => i case None => |lb|;
    assert Lower(name) == Lower(name);
    x := u[idx];
  }

  /** An entry of a sorted table survives the cut, or ten entries at least as
      good are kept instead. */
  lemma TopKeepsOrBeats(s: seq<Entry>, x: Entry)
    requires SortedDesc(s) && x in s
    ensures x in Top(s) || (|Top(s)| == MaxEntries && forall k :: 0 <= k < MaxEntries ==> Top(s)[k].score >= x.score)
  {
    var p :| 0 <= p < |s| && s[p] == x;
    if p < MaxEntries {
      assert Top(s)[p] == x;
    } else {
      forall k | 0 <= k < MaxEntries ensures Top(s)[k].score >= x.score {
        assert Top(s)[k] == s[k];
      }
    }
  }

  lemma UniqueCons(a: Entry, t: seq<Entry>)
    requires UniqueNames(t)
    requires forall x :: x in t ==> !SameName(a.username, x.username)
    ensures UniqueNames([a] + t)
  {
    var s := [a] + t;
    forall i, j | 0 <= i < j < |s| ensures !SameName(s[i].username, s[j].username) {
      if i > 0 {
        assert s[i] == t[i - 1] && s[j] == t[j - 1];
      } else {
        assert s[j] in t;
      }
    }
  }

  lemma {:induction false} InsertUnique(e: Entry, s: seq<Entry>)
    requires UniqueNames(s)
    requires forall x :: x in s ==> !SameName(e.username, x.username)
    ensures UniqueNames(Insert(e, s))
  {
    if |s| == 0 || e.score >= s[0].score {
      UniqueCons(e, s);
    } else {
      var t := Insert(e, s[1..]);
      assert forall k :: 0 <= k < |s| - 1 ==> s[1..][k] == s[k + 1];
      assert UniqueNames(s[1..]);
      InsertUnique(e, s[1..]);
      forall x | x in t ensures !SameName(s[0].username, x.username) {
        assert x in multiset(t);
        if x != e {
          assert x in s[1..];
          var k :| 0 <= k < |s[1..]| && s[1..][k] == x;
          assert s[k + 1] == x;
        } else {
          assert s[0] in s;
        }
      }
      UniqueCons(s[0], t);
    }
  }

  lemma {:induction false} SortUnique(s: seq<Entry>)
    requires UniqueNames(s)
    ensures UniqueNames(SortByScore(s))
  {
    if |s| > 0 {
      var tail := s[1..];
      assert forall k :: 0 <= k < |tail| ==> tail[k] == s[k + 1];
      SortUnique(tail);
      var t := SortByScore(tail);
      forall x | x in t ensures !SameName(s[0].username, x.username) {
        assert x in multiset(t);
        var k :| 0 <= k < |tail| && tail[k] == x;
        assert s[k + 1] == x;
      }
      InsertUnique(s[0], t);
    }
  }

  lemma UpsertUnique(lb: seq<Entry>, name: string, score: int, now: string)
    requires UniqueNames(lb)
    ensures UniqueNames(Upsert(lb, name, score, now))
  {
    var u := Upsert(lb, name, score, now);
    if !HasName(lb, name) {
      forall i, j | 0 <= i < j < |u| ensures !SameName(u[i].username, u[j].username) {
        if j == |lb| {
          assert u[i] == lb[i];
        } else {
          assert u[i] == lb[i] && u[j] == lb[j];
        }
      }
    } else {
      var i0 := FindIndex(lb, name).value;
      forall i, j | 0 <= i < j < |u| ensures !SameName(u[i].username, u[j].username) {
        assert u[i].username == lb[i].username && u[j].username == lb[j].username;
      }
    }
  }

  /** Recording keeps the table free of duplicate (case-insensitive) names. */
  lemma SaveKeepsNamesUnique(lb: seq<Entry>, name: string, score: int, now: string)
    requires UniqueNames(lb)
    ensures UniqueNames(Save(lb, name, score, now))
  {
    UpsertUnique(lb, name, score, now);
    SortUnique(Upsert(lb, name, score, now));
  }

  /** The cut keeps the best: every entry that falls off the end of the table
      scores no higher than any entry that stays. */
  lemma SaveDropsOnlyLowest(lb: seq<Entry>, name: string, score: int, now: string)
    ensures var u := Upsert(lb, name, score, now);
      var r := Save(lb, name, score, now);
      forall x :: x in u && x !in r ==>
        |r| == MaxEntries && forall k :: 0 <= k < MaxEntries ==> r[k].score >= x.score
  {
    var u := Upsert(lb, name, score, now);
    var s := SortByScore(u);
    var r := Save(lb, name, score, now);
    assert r == Top(s);
    forall x | x in u && x !in r
      ensures |r| == MaxEntries && forall k :: 0 <= k < MaxEntries ==> r[k].score >= x.score
    {
      assert x in multiset(u);
      assert x in multiset(s);
      CutDropsOnlyLowest(s, x);
    }
  }

  /** The cut of a sorted list drops only entries scoring at most every kept one. */
  lemma CutDropsOnlyLowest(s: seq<Entry>, x: Entry)
    requires SortedDesc(s)
    requires x in s && x !in Top(s)
    ensures |Top(s)| == MaxEntries
    ensures forall k :: 0 <= k < MaxEntries ==> Top(s)[k].score >= x.score
  {
    var p :| 0 <= p < |s| && s[p] == x;
    if p < MaxEntries {
      assert false;
    }
    forall k | 0 <= k < MaxEntries ensures Top(s)[k].score >= x.score {
      assert Top(s)[k] == s[k];
    }
  }

  /** The high-score example: 100, then a lower 50, then a higher 150 for
      the same player (spelled with different case). */
  lemma RecordAliceExample()
    ensures var t1 := Save([], "alice", 100, "d1");
      && t1 == [Entry("alice", 100, "d1")]
      && Save(t1, "Alice", 50, "d2") == t1
      && Save(Save(t1, "Alice", 50, "d2"), "ALICE", 150, "d3") == [Entry("alice", 150, "d3")]
  {
    SaveFirst("alice", 100, "d1");
    AliceSpellings();
    SaveAgain(Entry("alice", 100, "d1"), "Alice", 50, "d2");
    SaveAgain(Entry("alice", 100, "d1"), "ALICE", 150, "d3");
  }

  /** Three spellings of one player's name. */
  lemma AliceSpellings()
    ensures SameName("alice", "Alice") && SameName("alice", "ALICE")
  {
    assert Lower("alice") == "alice";
    assert Lower("Alice") == "alice";
    assert Lower("ALICE") == "alice";
  }

  /** The first score recorded in an empty table. */
  lemma SaveFirst(name: string, score: int, now: string)
    ensures Save([], name, score, now) == [Entry(name, score, now)]
  {
    assert Upsert([], name, score, now) == [Entry(name, score, now)];
    assert SortByScore([Entry(name, score, now)]) == [Entry(name, score, now)] by {
      assert [Entry(name, score, now)][1..] == [];
    }
  }

  /** The same player recording again in a one-entry table. */
  lemma SaveAgain(e: Entry, name: string, score: int, now: string)
    requires SameName(e.username, name)
    ensures Save([e], name, score, now) == [if score > e.score then e.(score := score, date := now) else e]
  {
    assert FindIndex([e], name) == Some(0);
    var e' := if score > e.score then e.(score := score, date := now) else e;
    assert Upsert([e], name, score, now) == [e'];
    assert SortByScore([e']) == [e'] by {
      assert [e'][1..] == [];
    }
  }
}

=== FILE: popups.dfy ===
/** Floating score text (src/classes/ScorePopup.js) and the loop in the
    frame update that advances the popups and drops the finished ones
    (src/main.js). A popup drifts by its velocity, loses one unit of life per
    frame, fades during its last twenty frames, and is finished once its life
    or its opacity is used up. */
module Popups {
  import opened Common

  const DefaultLife: int := 60
  /** Fading starts on the update that takes life below this. */
  const FadeBelow: int := 20
  const FadeStep: real := 0.04

  datatype Popup = Popup(
    x: real, y: real, vx: real, vy: real,
    life: int, opacity: real, text: string, color: string)

  /** The constructor: colour defaults to yellow and life to 60; the popup
      starts opaque, rises at 1.2 per frame, and drifts sideways by
      `(Math.random() - 0.5) * 0.6`. */
  function NewPopup(x: real, y: real, text: string, color: Option<string>, life: Option<int>, d: Draw)
    : (p: Popup)
    ensures p.x == x && p.y == y && p.text == text
    ensures life.None? ==> p.life == 60
    ensures life.Some? ==> p.life == life.value
    ensures color.None? ==> p.color == "yellow"
    ensures color.Some? ==> p.color == color.value
    ensures p.opacity == 1.0 && p.vy == -1.2
    ensures -0.3 <= p.vx < 0.3
  {
    var c := match color case Some(c) => c case None => "yellow";
    var l := match life case Some(l) => l case None => DefaultLife;
    Popup(x, y, (d - 0.5) * 0.6, -1.2, l, 1.0, text, c)
  }

  /** `ScorePopup.update`: one frame of drift, one unit of life, and a step of
      fading when the remaining life is below 20. */
  function Update(p: Popup): (r: Popup)
    ensures r.life == p.life - 1
    ensures r.x - p.x == p.vx && r.y - p.y == p.vy
    ensures r.life < 20 ==> p.opacity - r.opacity == 0.04
    ensures r.life >= 20 ==> r.opacity == p.opacity
    ensures r.vx == p.vx && r.vy == p.vy && r.text == p.text && r.color == p.color
  {
    var l := p.life - 1;
    p.(x := p.x + p.vx, y := p.y + p.vy, life := l,
       opacity := if l < FadeBelow then p.opacity - FadeStep else p.opacity)
  }

  /** `ScorePopup.isDead`. */
  predicate IsDead(p: Popup)
  {
    p.life <= 0 || p.opacity <= 0.0
  }

  function Updates(p: Popup, n: nat): Popup
    decreases n
  {
    if n == 0 then p else Updates(Update(p), n - 1)
  }

  /** How many of the next `n` updates of a popup with life `life` fade it:
      those that leave less than 20. */
  function Fades(life: int, n: nat): (f: nat)
    ensures f <= n
  {
    if life <= FadeBelow then n
    else if n <= life - FadeBelow then 0
    else n - (life - FadeBelow)
  }

  /** After `n` updates life has dropped by `n` and opacity by 0.04 per fading
      update. */
  lemma {:induction false} UpdatesLifeAndOpacity(p: Popup, n: nat)
    ensures Updates(p, n).life == p.life - n
    ensures Updates(p, n).opacity == p.opacity - FadeStep * (Fades(p.life, n) as real)
    decreases n
  {
    if n > 0 {
      var q := Update(p);
      UpdatesLifeAndOpacity(q, n - 1);
      assert Fades(p.life, n) == Fades(q.life, n - 1) + (if q.life < FadeBelow then 1 else 0);
    }
  }

  /** A popup that starts opaque with life `L` is finished after exactly `L`
      updates: not before, and at every update from then on. */
  lemma DeadExactlyAfterLife(p: Popup, n: nat)
    requires p.opacity == 1.0
    ensures IsDead(Updates(p, n)) <==> n >= p.life
  {
    UpdatesLifeAndOpacity(p, n);
    if n < p.life {
      assert Fades(p.life, n) <= 19;
    }
  }

  /** `p` is the update of one of `ps`. */
  predicate UpdateOf(p: Popup, ps: seq<Popup>)
  {
    exists j :: 0 <= j < |ps| && p == Update(ps[j])
  }

  /** Every popup of `ps` updated once, in order. */
  function UpdateAll(ps: seq<Popup>): (r: seq<Popup>)
    ensures |r| == |ps|
    ensures forall k :: 0 <= k < |ps| ==> r[k] == Update(ps[k])
  {
    if |ps| == 0 then [] else [Update(ps[0])] + UpdateAll(ps[1..])
  }

  /** The popups a frame keeps: each one updated, without those then
      finished, in their original order. */
  function Survivors(ps: seq<Popup>): seq<Popup>
  {
    Filter(UpdateAll(ps), IsDead)
  }

  /** The popup loop of one frame: every popup is updated, and those that are
      then finished are removed; the others stay, once each and in their
      order. The loop runs from the back, so that removing a popup never
      shifts one still to be visited. */
  method UpdatePopups(ps: seq<Popup>) returns (r: seq<Popup>)
    ensures r == Survivors(ps)
    ensures |r| <= |ps|
    ensures forall k :: 0 <= k < |r| ==> !IsDead(r[k])
    ensures forall k :: 0 <= k < |r| ==> UpdateOf(r[k], ps)
    ensures forall j :: 0 <= j < |ps| && !IsDead(Update(ps[j])) ==> Update(ps[j]) in r
  {
    r := [];
    var i := |ps|;
    while i > 0
      invariant 0 <= i <= |ps|
      invariant r == Survivors(ps[i..])
    {
      i := i - 1;
      assert ps[i..] == [ps[i]] + ps[i + 1..];
      FilterCons(Update(ps[i]), UpdateAll(ps[i + 1..]), IsDead);
      var u := Update(ps[i]);
      if !IsDead(u) {
        r := [u] + r;
      }
    }
    assert ps[0..] == ps;
    SurvivorsSpec(ps);
  }

  /** The survivors of a frame are live updates of the popups, and every live
      update survives. */
  lemma SurvivorsSpec(ps: seq<Popup>)
    ensures var r := Survivors(ps);
      && |r| <= |ps|
      && (forall k :: 0 <= k < |r| ==> !IsDead(r[k]))
      && (forall k :: 0 <= k < |r| ==> UpdateOf(r[k], ps))
      && (forall j :: 0 <= j < |ps| && !IsDead(Update(ps[j])) ==> Update(ps[j]) in r)
  {
    var r := Survivors(ps);
    FilterSpec(UpdateAll(ps), IsDead);
    forall k | 0 <= k < |r| ensures UpdateOf(r[k], ps) {
      var j :| 0 <= j < |ps| && r[k] == UpdateAll(ps)[j];
    }
  }
}

=== FILE: powers.dfy ===
/** The two power-ups, shield and rapid fire (`powers`, `activatePower` and
    `startCooldown` in src/main.js and src/config.js). Each power is a small
    state machine driven by three events that stand for the browser timers:
    the key press (`Activate`), the `setTimeout` that ends the active window
    (`DurationElapsed`) and each firing of the one-second `setInterval`
    (`CooldownTick`). A timer event arrives only while its timer exists: the
    duration timer while the power is active, the interval while the power
    is cooling down; in any other phase the event changes nothing. */
module Powers {

  datatype Kind = Shield | RapidFire

  datatype Power = Power(active: bool, ready: bool, cooldown: int, duration: int)

  datatype Powers = Powers(shield: Power, rapidFire: Power)

  datatype Event = Activate(kind: Kind) | DurationElapsed(kind: Kind) | CooldownTick(kind: Kind)

  /** Milliseconds subtracted by each firing of the cooldown interval. */
  const TickMs: int := 1000

  /** Length of the active window in milliseconds (the `duration` field). */
  function Duration(k: Kind): int
  {
    match k
    case Shield => 3000
    case RapidFire => 5000
  }

  /** Cooldown passed to `startCooldown` when the active window ends. */
  function CooldownAfter(k: Kind): int
  {
    match k
    case Shield => 10000
    case RapidFire => 15000
  }

  /** The initial `powers` object: both powers inactive and ready. */
  function Initial(): (ps: Powers)
    ensures !ps.shield.active && ps.shield.ready
    ensures !ps.rapidFire.active && ps.rapidFire.ready
    ensures ps.shield.duration == 3000 && ps.rapidFire.duration == 5000
    ensures ps.shield.cooldown == 0 && ps.rapidFire.cooldown == 0
  {
    Powers(Power(false, true, 0, Duration(Shield)), Power(false, true, 0, Duration(RapidFire)))
  }

  function Get(ps: Powers, k: Kind): Power
  {
    match k
    case Shield => ps.shield
    case RapidFire => ps.rapidFire
  }

  function Set(ps: Powers, k: Kind, p: Power): (r: Powers)
    ensures Get(r, k) == p
    ensures forall j :: j != k ==> Get(r, j) == Get(ps, j)
  {
    match k
    case Shield => ps.(shield := p)
    case RapidFire => ps.(rapidFire := p)
  }

  /** The phase in which the cooldown interval is running. */
  predicate Cooling(p: Power)
  {
    !p.active && !p.ready
  }

  /** `activatePower`: nothing happens unless the power is ready; otherwise it
      becomes active and stops being ready. */
  function ActivatePower(p: Power): (r: Power)
    ensures !p.ready ==> r == p
    ensures p.ready ==> r.active && !r.ready
    ensures r.cooldown == p.cooldown && r.duration == p.duration
  {
    if !p.ready then p else p.(active := true, ready := false)
  }

  /** The duration timer's callback: the power goes inactive and
      `startCooldown(type, ms)` loads the cooldown for its kind. */
  function Expire(p: Power, k: Kind): (r: Power)
    ensures !r.active && r.ready == p.ready && r.duration == p.duration
    ensures k == Shield ==> r.cooldown == 10000
    ensures k == RapidFire ==> r.cooldown == 15000
  {
    p.(active := false, cooldown := CooldownAfter(k))
  }

  /** One firing of the cooldown interval: one second comes off the cooldown,
      and the power becomes ready when the cooldown is no longer positive. */
  function Tick(p: Power): (r: Power)
    ensures r.cooldown == p.cooldown - TickMs
    ensures r.ready <==> p.ready || r.cooldown <= 0
    ensures r.active == p.active && r.duration == p.duration
  {
    var c := p.cooldown - TickMs;
    if c <= 0 then p.(cooldown := c, ready := true) else p.(cooldown := c)
  }

  /** The effect of one event on one power. */
  function StepPower(p: Power, e: Event): Power
  {
    match e
    case Activate(_) => ActivatePower(p)
    case DurationElapsed(k) => if p.active then Expire(p, k) else p
    case CooldownTick(_) => if Cooling(p) then Tick(p) else p
  }

  /** One event applied to the pair of powers; only the power it names moves. */
  function Step(ps: Powers, e: Event): (r: Powers)
    ensures Get(r, e.kind) == StepPower(Get(ps, e.kind), e)
    ensures forall j :: j != e.kind ==> Get(r, j) == Get(ps, j)
  {
    Set(ps, e.kind, StepPower(Get(ps, e.kind), e))
  }

  /** The phase invariant of a reachable power: exactly one of ready, active
      and cooling holds, and the cooldown is positive exactly while cooling. */
  predicate Valid(p: Power)
  {
    && !(p.active && p.ready)
    && (Cooling(p) <==> p.cooldown > 0)
  }

  predicate ValidPowers(ps: Powers)
  {
    Valid(ps.shield) && Valid(ps.rapidFire)
  }

  /** Each event keeps the invariant, so a power is never active and ready at once. */
  lemma StepKeepsValid(ps: Powers, e: Event)
    requires ValidPowers(ps)
    ensures ValidPowers(Step(ps, e))
    ensures !(Step(ps, e).shield.active && Step(ps, e).shield.ready)
    ensures !(Step(ps, e).rapidFire.active && Step(ps, e).rapidFire.ready)
  {
    var r := Step(ps, e);
    assert Get(r, Shield) == r.shield && Get(r, RapidFire) == r.rapidFire;
    assert Get(ps, Shield) == ps.shield && Get(ps, RapidFire) == ps.rapidFire;
  }

  function Run(ps: Powers, es: seq<Event>): Powers
    decreases |es|
  {
    if |es| == 0 then ps else Run(Step(ps, es[0]), es[1..])
  }

  /** Every state reachable from the initial powers satisfies the invariant. */
  lemma {:induction false} RunKeepsValid(ps: Powers, es: seq<Event>)
    requires ValidPowers(ps)
    ensures ValidPowers(Run(ps, es))
    decreases |es|
  {
    if |es| > 0 {
      StepKeepsValid(ps, es[0]);
      RunKeepsValid(Step(ps, es[0]), es[1..]);
    }
  }

  lemma ReachableNeverActiveAndReady(es: seq<Event>)
    ensures !(Run(Initial(), es).shield.active && Run(Initial(), es).shield.ready)
    ensures !(Run(Initial(), es).rapidFire.active && Run(Initial(), es).rapidFire.ready)
  {
    RunKeepsValid(Initial(), es);
  }

  /** A second key press before the power is ready again changes nothing. */
  lemma ActivateIdempotent(ps: Powers, k: Kind)
    ensures Step(Step(ps, Activate(k)), Activate(k)) == Step(ps, Activate(k))
  {
  }

  /** `n` firings of the cooldown interval. */
  function Ticks(p: Power, n: nat): Power
    decreases n
  {
    if n == 0 then p else Ticks(if Cooling(p) then Tick(p) else p, n - 1)
  }

  /** Cooling down: after `n` firings the power is ready exactly when
      `n` seconds cover the cooldown; until then the cooldown has dropped by
      one second per firing, and the interval stops once the power is ready. */
  lemma {:induction false} CooldownReadyExactly(p: Power, n: nat)
    requires Cooling(p) && p.cooldown > 0
    ensures Ticks(p, n).ready <==> p.cooldown - TickMs * n <= 0
    ensures !Ticks(p, n).ready ==> Ticks(p, n).cooldown == p.cooldown - TickMs * n
    ensures !Ticks(p, n).active && Ticks(p, n).duration == p.duration
    decreases n
  {
    if n > 0 {
      var q := Tick(p);
      assert Ticks(p, n) == Ticks(q, n - 1);
      if q.ready {
        assert Ticks(q, n - 1) == q by { TicksWhenReady(q, n - 1); }
      } else {
        CooldownReadyExactly(q, n - 1);
      }
    }
  }

  lemma {:induction false} TicksWhenReady(p: Power, n: nat)
    requires p.ready
    ensures Ticks(p, n) == p
    decreases n
  {
    if n > 0 {
      TicksWhenReady(p, n - 1);
    }
  }

  /** The full cycle of one power from ready: activation, the end of the
      active window, then ten (shield) or fifteen (rapid fire) interval
      firings before the power is ready again, and not one fewer. */
  lemma FullCycle(p: Power, k: Kind)
    requires Valid(p) && p.ready
    ensures var expired := StepPower(StepPower(p, Activate(k)), DurationElapsed(k));
      && Cooling(expired)
      && !Ticks(expired, CooldownAfter(k) / TickMs - 1).ready
      && Ticks(expired, CooldownAfter(k) / TickMs).ready
  {
    var expired := StepPower(StepPower(p, Activate(k)), DurationElapsed(k));
    CooldownReadyExactly(expired, CooldownAfter(k) / TickMs - 1);
    CooldownReadyExactly(expired, CooldownAfter(k) / TickMs);
  }
}

=== FILE: spawner.dfy ===
/** The wave spawner (src/classes/InvaderSpawner.js): every call produces
    five enemies at random positions above the top of the screen, all with the
    same speed multiplier, and counts the call. */
module Spawner {
  import opened Common
  import opened Invaders

  /** Enemies per wave (`numInvaders`). */
  const WaveSize: nat := 5

  datatype Spawner = Spawner(canvasWidth: real, spawnCount: nat)

  /** The four `Math.random()` values one enemy of a wave consumes, in call
      order: its x, its y, then the constructor's direction and speed. */
  datatype EnemyDraws = EnemyDraws(x: Draw, y: Draw, dir: Draw, speed: Draw)

  function NewSpawner(canvasWidth: real): (sp: Spawner)
    ensures sp.canvasWidth == canvasWidth && sp.spawnCount == 0
  {
    Spawner(canvasWidth, 0)
  }

  /** `Math.random() * (canvasWidth - 30)`: left edges that keep a 30-wide
      enemy on the canvas. */
  function SpawnX(canvasWidth: real, d: Draw): (x: real)
    ensures canvasWidth > InvaderSize ==> 0.0 <= x < canvasWidth - InvaderSize
    ensures canvasWidth == InvaderSize ==> x == 0.0
  {
    var w := canvasWidth - InvaderSize;
    if w > 0.0 then DrawScale(d, w); d * w else d * w
  }

  /** A draw scales a positive width into `[0, w)`. */
  lemma DrawScale(d: Draw, w: real)
    requires w > 0.0
    ensures 0.0 <= d * w < w
  {
    assert (1.0 - d) * w > 0.0;
  }

  /** `-50 - Math.random() * 200`: between 50 and 250 above the top edge. */
  function SpawnY(d: Draw): (y: real)
    ensures -250.0 < y <= -50.0
  {
    -50.0 - d * 200.0
  }

  /** The enemy a wave places from one set of draws. */
  function Spawned(sp: Spawner, m: real, d: EnemyDraws, id: nat): Invader
  {
    NewInvader(id, SpawnX(sp.canvasWidth, d.x), SpawnY(d.y), m, d.dir, d.speed)
  }

  /** `spawnWave(speedMultiplier)`: exactly five enemies, the k-th built from
      the k-th set of draws and given the k-th fresh identity; every one
      starts above the screen, horizontally within the canvas, with the
      multiplier's velocity ranges; the call counter goes up by one. */
  method SpawnWave(sp: Spawner, m: real, draws: seq<EnemyDraws>, firstId: nat)
    returns (next: Spawner, wave: seq<Invader>)
    requires |draws| == WaveSize
    ensures next.spawnCount == sp.spawnCount + 1 && next.canvasWidth == sp.canvasWidth
    ensures |wave| == WaveSize
    ensures forall k :: 0 <= k < |wave| ==> wave[k] == Spawned(sp, m, draws[k], firstId + k)
    ensures forall k :: 0 <= k < |wave| ==> wave[k].id == firstId + k
    ensures forall k :: 0 <= k < |wave| ==> -250.0 < wave[k].y <= -50.0
    ensures forall k :: 0 <= k < |wave| ==> wave[k].width == InvaderSize && wave[k].height == InvaderSize
    ensures sp.canvasWidth > InvaderSize ==>
      forall k :: 0 <= k < |wave| ==> 0.0 <= wave[k].x < sp.canvasWidth - InvaderSize
    ensures m > 0.0 ==> forall k :: 0 <= k < |wave| ==> -m <= wave[k].vx < m && 0.5 * m <= wave[k].vy < m
  {
    wave := [];
    var i := 0;
    while i < WaveSize
      invariant 0 <= i <= WaveSize
      invariant |wave| == i
      invariant forall k :: 0 <= k < i ==> wave[k] == Spawned(sp, m, draws[k], firstId + k)
    {
      wave := wave + [Spawned(sp, m, draws[i], firstId + i)];
      i := i + 1;
    }
    next := sp.(spawnCount := sp.spawnCount + 1);
  }
}
